=== FILE: README.md ===
# Task manager core, modelled in Dafny

This project models the client-side core of a personal task-manager web app.
The core is the `useTaskManager` hook. It holds:

- an ordered list of tasks;
- a list of categories with derived task counts;
- a linear undo/redo history of at most 50 entries, with a cursor;
- a `nextId` counter, the id being edited, and the current filter.

The project also models the small pure pieces of the UI components that feed the hook:

- the add-task form and its payload;
- the inline editor and its payload and key handling;
- the category panel and its guard;
- drag-end index resolution and the delete-confirmation dialog;
- relative-time bucketing;
- the "next Monday" offset and the shape of the quick-schedule presets.

Every hook callback is a pure function from `State` to `State`. Each of
`setTasks` is followed in the source by an effect that recounts categories
(`useTaskManager.ts:303-305`). `TaskManager.WithTasks` models the two steps
together. The history is a tagged union, `HistoryAction`, with four variants:
`Add(task)`, `Delete(task, position)`, `Toggle(id, previous, new)` and
`Edit(id, previousData, newData)`.

Modules, one per source file, plus shared helpers:

| module | file | models |
|---|---|---|
| `Seqs` | seqs.dfy | `Array.prototype.filter`, as an order-preserving `Filter` |
| `Text` | text.dfy | `trim`, the `\s` class, ASCII `toLowerCase`, the category slug, number-to-decimal |
| `TaskTypes` | task_types.dfy | `src/types/task.ts` records, `findIndex` by id |
| `TaskManager` | task_manager.dfy | `src/hooks/useTaskManager.ts` |
| `TaskManagerInvariants` | task_manager_invariants.dfy | invariants every hook operation keeps |
| `UndoRedo` | undo_redo.dfy | undo/redo round trips |
| `Views` | views.dfy | filtered view and statistics |
| `TaskForm`, `TaskItem`, `CategoryManager`, `TaskList` | task_form.dfy, task_item.dfy, category_manager.dfy, task_list.dfy | the components of the same names |
| `FormGuards` | form_guards.dfy | what the hook gets from the components' guards |
| `DateUtils`, `ScheduleUtils` | date_utils.dfy, schedule_utils.dfy | `src/utils/` |

Things worth knowing about the model:

- **The model follows the code:**
  - The hook itself validates nothing. Non-empty titles come only from the forms (`FormGuards.SubmittedTaskIsTitled`).
  - Deleting `general` is prevented only by hiding its button (`FormGuards.OfferedDeleteKeepsDefault`).
  - `editTask` and `deleteTask` silently ignore an unknown id.
  - There is no reorder operation and no sort positions.
  - There is no remote reconciliation.
- **Counts after `addCategory`.** `addCategory` gives the new category a count of 0 and does not recount. So the counts stay right exactly when no task is already filed under the new slug (`TaskManagerInvariants.AddCategoryValidIff`). They go wrong when, for example, "Work" is added while the default `work` category holds tasks.
- **Validity and the history.** `TaskManagerInvariants.Valid` asks for distinct, issued ids, a well-formed history and agreeing counts. It also asks that the history agrees with the task list. There must be a chain of id lists, one before and one after each recorded entry, that passes through the current ids at the cursor and holds only distinct, issued ids. Without that conjunct, undoing a `Delete` whose task is still in the list would duplicate an id. With it, undo and redo keep the state valid (`TaskManagerInvariants.UndoKeepsValid`, `TaskManagerInvariants.RedoKeepsValid`). The undo round trips and the form guards need only the first part, `TaskManagerInvariants.TasksValid`.
- **Preconditions of `Undo` and `Redo`.** `Undo` requires the cursor to be below `|history|`. `Redo` requires it to be at least -1. Outside those bounds the source reads a missing entry and throws. The invariant `HistoryWellFormed` keeps the cursor inside them.

## Model

| member | source | states |
|---|---|---|
| TaskManager.UpdateCategoryCount | src/hooks/useTaskManager.ts:24-29 | Each category's count becomes the number of tasks with that category id. Ids, names, colours and order are kept. |
| TaskManager.WithTasks | src/hooks/useTaskManager.ts:303-305 | Replacing the task list also recounts the categories. Nothing else in the state changes. |
| TaskManager.AddToHistory | src/hooks/useTaskManager.ts:32-43 | Entries after the cursor are dropped and the action is appended. On a full history the oldest entry is evicted. Afterwards the history holds at most 50 entries and the cursor is on the last one. |
| TaskManager.AddCategory | src/hooks/useTaskManager.ts:46-54 | Appends one category: id is the slug of the name, count 0. Existing categories, tasks and history are unchanged. |
| TaskManager.DeleteCategory | src/hooks/useTaskManager.ts:57-62 | Each task of the deleted category moves to `general`, and every other task is unchanged, in place. The category list is the old list without the entries of that id, in order, with counts recomputed. Counts agree with the tasks. History and `nextId` are unchanged. |
| TaskManager.AddTask | src/hooks/useTaskManager.ts:65-79 | The new task goes in front of the old list. It has id `nextId` and exactly the seven submitted fields, and `nextId` increases by one. An `Add` entry for it is recorded and the history stays well formed. Counts agree. |
| TaskManager.ToggleTask | src/hooks/useTaskManager.ts:82-97 | Only tasks with that id have `completed` flipped; every other task is unchanged. An unknown id leaves tasks and history alone. A known id records its old and new value. |
| TaskManager.DeleteTask | src/hooks/useTaskManager.ts:100-118 | An unknown id changes nothing. Otherwise the task and its first position are recorded, and no task with that id remains. With distinct ids the list is the old one with exactly that position taken out, the rest in order. Category entries are kept and counts agree. |
| TaskManager.EditTask | src/hooks/useTaskManager.ts:121-159 | Editing mode always ends. An unknown id, or data equal to the six current fields, changes nothing else. Otherwise old and new data are recorded. The task carries the new data and keeps its id and `completed`. Every task with another id is unchanged. Category entries are kept and counts agree. |
| TaskManager.CanUndo | src/hooks/useTaskManager.ts:320 | In a well-formed history, undo is offered exactly when some entry lies at or before the cursor. |
| TaskManager.CanRedo | src/hooks/useTaskManager.ts:321 | In a well-formed history, redo is offered exactly when some entry lies after the cursor. |
| TaskManager.InsertAt | src/hooks/useTaskManager.ts:180 | `splice(position, 0, t)`: the task is placed at that position with both sides intact, or appended when the position is past the end. |
| TaskManager.Undo | src/hooks/useTaskManager.ts:162-209 | With the cursor at -1, nothing changes. Otherwise the cursor moves back one and editing ends. History and `nextId` stay as they were and counts still agree. |
| TaskManager.Redo | src/hooks/useTaskManager.ts:212-259 | With the cursor on the last entry, nothing changes. Otherwise the cursor moves forward one and editing ends. History stays as it was and counts still agree. |
| TaskManager.FilteredTasks | src/hooks/useTaskManager.ts:262-284 | The view holds exactly the stored tasks that match the filter: the four keywords, or else category equality. |
| TaskManager.TaskStats | src/hooks/useTaskManager.ts:307-311 | `total` is the task count, and `completed` plus `pending` equals `total`. |
| TaskTypes.IndexOfId | src/hooks/useTaskManager.ts:101-103 | Gives the first position holding the id, or none exactly when no task has it. |
| TaskTypes.WithData | src/hooks/useTaskManager.ts:151 | The spread sets all six editable fields to the new data. It keeps the id and `completed`. |
| TaskManagerInvariants.InitialStateValid | src/hooks/useTaskManager.ts:6-20 | The initial state is valid, with `nextId` 1, and neither undo nor redo is available. |
| TaskManagerInvariants.RecountIsIdentity | src/hooks/useTaskManager.ts:303-305 | Recounting when the counts already agree changes nothing. |
| TaskManager.RemoveIdAt | src/hooks/useTaskManager.ts:101-112 | With distinct ids, filtering out the id removes exactly the position that `find`/`indexOf` reported. |
| TaskManagerInvariants.AddTaskKeepsValid | src/hooks/useTaskManager.ts:65-79 | Adding keeps ids distinct, positive and below `nextId`. The history stays bounded and counts agree. |
| TaskManagerInvariants.ToggleTaskKeepsValid | src/hooks/useTaskManager.ts:82-97 | Toggling keeps the state valid. |
| TaskManagerInvariants.ToggleUnknownIsNoOp | src/hooks/useTaskManager.ts:82-97 | In a valid state, toggling an absent id leaves the whole state equal to what it was. |
| TaskManagerInvariants.DeleteTaskKeepsValid | src/hooks/useTaskManager.ts:100-118 | Deleting keeps the state valid. |
| TaskManagerInvariants.EditTaskKeepsValid | src/hooks/useTaskManager.ts:121-159 | Editing keeps the state valid. |
| TaskManagerInvariants.EditOwnDataIsNoOp | src/hooks/useTaskManager.ts:121-159 | With distinct ids, sending a task's own six fields records nothing and changes no task; only editing mode ends. |
| TaskManagerInvariants.ReassignCounts | src/hooks/useTaskManager.ts:57-62 | After reassignment the deleted category counts 0. `general` gains exactly the deleted category's tasks, and every other category keeps its count. |
| TaskManagerInvariants.DeleteCategoryKeepsValid | src/hooks/useTaskManager.ts:57-62 | Deleting a category keeps the state valid. |
| TaskManagerInvariants.AddCategoryValidIff | src/hooks/useTaskManager.ts:46-54 | After `addCategory` the state is valid if and only if no task is already filed under the new slug. |
| TaskManagerInvariants.RecordExtendsChain | src/hooks/useTaskManager.ts:32-43 | Recording an entry whose effect on the ids is known extends the history's chain of id lists, including when the oldest entry is evicted. The cursor ends on the new list. |
| TaskManagerInvariants.RevertIds | src/hooks/useTaskManager.ts:166-207 | Reverting an entry turns the ids after it back into the ids before it. Undoing an add removes the front id, undoing a delete reinserts the id at its position, and toggles and edits keep the ids. |
| TaskManagerInvariants.ReplayIds | src/hooks/useTaskManager.ts:216-257 | Replaying an entry turns the ids before it into the ids after it. With distinct ids, redoing a delete removes exactly the recorded position. |
| TaskManagerInvariants.UndoKeepsValid | src/hooks/useTaskManager.ts:162-209 | Undo keeps the state valid, including distinct ids. |
| TaskManagerInvariants.RedoKeepsValid | src/hooks/useTaskManager.ts:212-259 | Redo keeps the state valid, including distinct ids. |
| UndoRedo.AddThenUndo | src/hooks/useTaskManager.ts:166-226 | Undo after an add gives back the previous task list and counts, and the cursor returns unless an entry was evicted. Redo then restores the post-add state. |
| UndoRedo.DeleteThenUndo | src/hooks/useTaskManager.ts:176-235 | Undo after a delete puts the task back at its recorded position, restoring list and counts. Redo then restores the post-delete state. |
| UndoRedo.ToggleThenUndo | src/hooks/useTaskManager.ts:186-242 | Undo after a toggle restores the previous list. Redo then restores the post-toggle state. |
| UndoRedo.EditThenUndo | src/hooks/useTaskManager.ts:193-253 | Undo after an effective edit restores the previous list. Redo then restores the post-edit state. |
| UndoRedo.UndoNoOpIff | src/hooks/useTaskManager.ts:163 | `undo` leaves the state unchanged if and only if `canUndo` is false. |
| UndoRedo.RedoNoOpIff | src/hooks/useTaskManager.ts:213 | `redo` leaves the state unchanged if and only if `canRedo` is false. |
| UndoRedo.EvictionForgetsOldest | src/hooks/useTaskManager.ts:34-39 | Recording into a full history drops its oldest entry, and the length stays 50. |
| Views.AllShowsEverything | src/hooks/useTaskManager.ts:275-276 | The `all` filter shows the stored list unchanged. |
| Views.FilteredKeepsOrder | src/hooks/useTaskManager.ts:262-284 | The view of a concatenation is the concatenation of the views, so stored order is preserved. |
| Views.CategoryFilterMatchesCount | src/hooks/useTaskManager.ts:278-279 | A non-keyword filter shows only tasks of that category, as many as that category's count. |
| Views.StatsMatchViews | src/hooks/useTaskManager.ts:307-311 | `completed` and `pending` are the lengths of the `completed` and `active` views, and together they cover every task. |
| Views.WorkScenario | src/hooks/useTaskManager.ts:46-79 | Adding category "Work" and then a task in `work` gives each `work` category a count of 1, and the `work` filter shows that task alone. |
| Text.Trim | src/components/TaskForm.tsx:30 | `trim` keeps a slice of the input with only white space cut from either end. It is empty exactly when the input is all white space. |
| Text.TrimIdempotent | src/components/TaskForm.tsx:30-43 | Trimming twice equals trimming once. So the trimmed title that is sent is exactly the text the guard checked. |
| Text.Slug | src/hooks/useTaskManager.ts:48 | The derived id contains no white space and no upper-case letter, and it is empty only for an empty name. Its value for every name is fixed by `Text.SlugAppend` with `Text.SlugOfWord` and `Text.SlugOfRunThenWord`; the replacement on its own is fixed by `Text.ReplaceSpaceRunsAppend`, `Text.RunAtFront` and `Text.ReplaceSpaceRunsOfNoSpace`. |
| Text.RunAtFront | src/hooks/useTaskManager.ts:48 | A leading run of white space becomes exactly one dash, and replacement continues after the run. |
| Text.ReplaceSpaceRunsAppend | src/hooks/useTaskManager.ts:48 | Cutting the name right after a character that is not white space cuts no run, so the replacement of the whole is the replacement of the two parts joined. |
| Text.SlugAppend | src/hooks/useTaskManager.ts:48 | The id of a name is the ids of its two parts joined, when the first part ends in a character that is not white space. |
| Text.SlugOfWord | src/hooks/useTaskManager.ts:48 | A name without white space gives itself in lower case. |
| Text.SlugOfRunThenWord | src/hooks/useTaskManager.ts:48 | A run of white space of any length and kind followed by a word gives one dash followed by the word in lower case. |
| Text.SlugOfSpaceThenWord | src/hooks/useTaskManager.ts:48 | A space followed by a word gives a dash followed by the word in lower case. |
| Text.SlugOfTwoWords | src/hooks/useTaskManager.ts:48 | Two words with a run of white space between them give the two words in lower case joined by one dash, as "Side Project" gives "side-project". |
| Text.SlugIdempotent | src/hooks/useTaskManager.ts:48 | Deriving the id from an id gives it back. |
| Text.SlugOfOneWord | src/hooks/useTaskManager.ts:48 | The id of "Work" is "work". |
| Text.NatToStringRoundTrip | src/utils/dateUtils.ts:10-13 | The rendered digits of a count read back as that count. |
| DateUtils.Count | src/utils/dateUtils.ts:10-13 | A template such as `${minutes} minutes ago` gives the decimal numeral of the number, without leading zeros, followed by the unit. |
| DateUtils.Describe | src/utils/dateUtils.ts:9-13 | Each bucket gives its fixed text, or the numeral of the number it carries, without leading zeros, followed by " minutes ago", " hours ago" or " days ago". |
| DateUtils.FormatDate | src/utils/dateUtils.ts:2-14 | Below 1 minute, including future dates, the result is "just now". The minutes, hours, yesterday and days buckets cover exactly their ranges. Shown numbers are 1-59 minutes, 1-23 hours, or at least 2 days, and bracket the difference. |
| DateUtils.FormatDateMonotone | src/utils/dateUtils.ts:5-13 | A larger difference never falls in a more recent bucket or shows a smaller number. |
| ScheduleUtils.DaysUntilMonday | src/utils/scheduleUtils.ts:21 | The offset is between 1 and 7, lands on a Monday, and is the first such day. |
| ScheduleUtils.DaysUntilMondayEnds | src/utils/scheduleUtils.ts:21 | On a Monday the offset is 7, not 0. On a Sunday it is 1. |
| ScheduleUtils.FormatDateTime | src/utils/scheduleUtils.ts:30-32 | A UTC date and time become a `datetime-local` value: ten date characters, `T`, five time characters. |
| ScheduleUtils.ScheduleOptions | src/utils/scheduleUtils.ts:8-56 | There are four presets in the order Today, Tomorrow, Next Week, Next Month. Today is at 17:00 and the others at 09:00. Next Week lands on a Monday. Each value is its instant's date, `T` and time. |
| TaskForm.CombineSchedule | src/components/TaskForm.tsx:32-40 | As written: there is no schedule exactly when no date is picked. |
| TaskForm.QuickScheduleDoublesTime | src/components/TaskForm.tsx:32-40 | As written, a submitted preset value gets a second `T` and a time, the picked one or 09:00. The stored text is no longer a date-time value. |
| TaskForm.CombineScheduleFixed | src/components/TaskForm.tsx:32-40 | Corrected: there is no schedule exactly when no date is picked. A plain date is combined as the code does. A date field that already holds a time keeps it when no time is picked, and a picked time replaces it. |
| TaskForm.ScheduleRoundTrip | src/components/TaskForm.tsx:32-40 | Corrected: the schedule from `TaskForm.CombineScheduleFixed` splits back into the picked date and the picked time. With no picked time it splits into the date and the time the date field held, or 09:00 for a plain date. |
| TaskForm.HoursOf | src/components/TaskForm.tsx:48 | An empty hours field gives no estimate. |
| TaskForm.HandleSubmit | src/components/TaskForm.tsx:27-62 | A blank title sends nothing and leaves the form as it was. Otherwise the payload has the trimmed title and description and `completed` false. It keeps priority and category, and the schedule is the date field followed by `T` and the picked time or 09:00, as `TaskForm.CombineSchedule` gives it. Then the form is reset. |
| TaskForm.HandleSubmitFixed | src/components/TaskForm.tsx:27-62 | Corrected: the same submit with the schedule from `TaskForm.CombineScheduleFixed`. Every other field and the reset are those of `TaskForm.HandleSubmit`. When the date field holds no `T`, the result is exactly that of `TaskForm.HandleSubmit`. |
| TaskForm.QuickSchedule | src/components/TaskForm.tsx:64-68 | The preset date is taken, the time is kept, and the picker is hidden. Nothing else changes. |
| TaskForm.QuickThenSubmitAsWritten | src/components/TaskForm.tsx:27-68 | As written: choosing a preset and submitting stores the preset's value followed by a second `T` and the picked time or 09:00. That text is not a date-time value. |
| TaskForm.QuickThenSubmit | src/components/TaskForm.tsx:27-68 | Corrected: choosing a preset and submitting through `TaskForm.HandleSubmitFixed` stores the preset's value, or its date with the picked time when one was picked. |
| TaskItem.InitEditState | src/components/TaskItem.tsx:30-36 | The edit fields start from the task. A missing schedule or estimate shows as an empty string. |
| TaskItem.ScheduleOf | src/components/TaskItem.tsx:48 | An empty schedule string means none. Any other string is passed as is. |
| TaskItem.HandleSave | src/components/TaskItem.tsx:42-53 | A blank title sends nothing. Otherwise all six editable fields are sent: trimmed text and description, plus the schedule, hours, priority and category. |
| TaskItem.HandleKeyDown | src/components/TaskItem.tsx:55-62 | Enter without Shift saves when the title is not blank, and Escape cancels. Every other key, and Shift+Enter, does nothing. |
| TaskItem.QuickSchedule | src/components/TaskItem.tsx:64-67 | The preset is taken and the picker hidden. Nothing else changes. |
| TaskItem.QuickThenSave | src/components/TaskItem.tsx:42-67 | Choosing a preset while editing and saving sends the preset's value as the schedule. Every other field is sent as saving without the preset would send it. |
| TaskItem.UntouchedSaveReturnsTaskData | src/components/TaskItem.tsx:30-51 | Saving untouched fields sends the task's own six fields back. A missing schedule comes back as none. |
| CategoryManager.HandleSubmit | src/components/CategoryManager.tsx:27-35 | A blank name sends nothing and leaves the panel unchanged. Otherwise the trimmed name and the colour are sent, and the panel closes with an empty name and the first palette colour. |
| CategoryManager.Handle | src/components/CategoryManager.tsx:117-121 | Only submit sends a request. Picking button i selects palette entry i. A palette colour stays a palette colour. |
| CategoryManager.ColorStaysInPalette | src/components/CategoryManager.tsx:13-25 | After any sequence of panel events the selected colour is one of the ten palette colours. |
| CategoryManager.DeletableIds | src/components/CategoryManager.tsx:82-90 | Every category except `general` offers a delete button, and `general` never does. |
| TaskList.HandleDragEnd | src/components/TaskList.tsx:65-76 | A reorder is requested exactly when the drop is on another task and both ids are in the displayed list. The two indices are positions of those tasks in that list and differ. |
| TaskList.HandleDeleteClick | src/components/TaskList.tsx:78-83 | The dialog opens holding that task. |
| TaskList.HandleConfirmDelete | src/components/TaskList.tsx:85-90 | With a task held, its id is deleted and the dialog closes. With none held, nothing happens. |
| TaskList.HandleCancelDelete | src/components/TaskList.tsx:92-94 | The dialog closes and forgets the task. |
| TaskList.ModalStaysConsistent | src/components/TaskList.tsx:49-94 | The dialog is open exactly when it holds a task, after every handler. |
| TaskList.ClickThenDecide | src/components/TaskList.tsx:78-94 | For the handlers as declared: click then confirm deletes exactly the clicked task, and click then cancel deletes nothing. The wiring to TaskItem differs (see "## Left out"). |
| FormGuards.SubmittedTaskIsTitled | src/components/TaskForm.tsx:30-50 | A task added through the form has a non-blank trimmed title, starts not completed, and gets id `nextId`. |
| FormGuards.UntouchedEditIsNoOp | src/components/TaskItem.tsx:30-51 | Saving a freshly opened editor without changes leaves tasks and history as they were; only editing mode ends. |
| FormGuards.PanelCategoryIsWellFormed | src/components/CategoryManager.tsx:29-30 | A category created from the panel has a trimmed non-blank name and a non-empty id without spaces. Its colour is from the palette and its count is 0. |
| FormGuards.OfferedDeleteKeepsDefault | src/components/CategoryManager.tsx:82-84 | Deleting any category the panel offers keeps `general` in the list. |
| FormGuards.ConfirmedDeleteIsUndoable | src/components/TaskList.tsx:85-90 | For the handlers as declared: confirming deletion of a stored task removes it, and undo puts it back. |

## Left out

- Authentication and the hosted database client (`src/components/Auth.tsx`, `src/lib/supabase.ts`): remote I/O.
- Remote reconciliation and hashing string keys to numeric ids: the hook modelled here has neither.
- Rendering and configuration: `src/app/page.tsx`, `src/app/layout.tsx`, `src/components/DeleteConfirmationModal.tsx`, `tailwind.config.js`. The button that toggles the custom date picker is also render-only state.
- Reordering, `sortOrder` and the `'reorder'` history kind: they are declared in `src/types/task.ts` but nothing in the hook implements them.
- React mechanics, which the model treats as one synchronous transition per callback:
  - batched `useState` updates;
  - the stale `historyIndex` captured by `addToHistory`;
  - recording history inside a `setTasks` updater;
  - the document keyboard listener for Ctrl+Z / Ctrl+Y.
- TaskManager.DeleteTask: the removal is immediate, not deferred 300 ms for the exit animation.
- TaskManager.ToggleTask: with duplicate ids the source would record one entry per match inside the updater. The model records one entry, for the first match. Distinct ids are an invariant that every operation, undo and redo included, keeps (`TaskManagerInvariants.Valid`), so this case never arises.
- TaskManager.EditTask: estimates are `real`, so the JavaScript `NaN !== NaN` case (a non-numeric hours field counting as a change) is not modelled.
- `parseFloat` and `toString` of the hours are floating point. They are the function parameters `parseHours` and `showHours`.
- `Date` values, `createdAt`, `getMinDate`, `getMinDateTime`, calendar arithmetic for "tomorrow" and "next month", the time-zone conversion of `toISOString`, and the locale formatting in `formatScheduledDate`. Presets carry a date shift and an hour. The UTC date and time each preset reaches are parameters of `ScheduleUtils.ScheduleOptions`, and the clock is a parameter of `DateUtils.FormatDate`.
- Text.ToLower: lower-cases only ASCII `A`-`Z`. JavaScript's `toLowerCase` also maps non-ASCII letters.
- TaskList.HandleDeleteClick: the handler declares a whole task as its parameter (src/components/TaskList.tsx:78), and the model follows that declaration. But TaskList passes it to TaskItem as `onDelete` (line 126), and TaskItem declares `onDelete` with a number and calls it with `task.id` (src/components/TaskItem.tsx:14, 259). As the files read, the dialog would hold a number, and confirming would call `onDelete` with an undefined id, which deletes nothing. TaskList also passes an `isDraggable` prop that TaskItem does not declare, and the page renders TaskItem with `onDelete` bound to `deleteTask` directly. So TaskList appears to be written against another version of TaskItem. `TaskList.ClickThenDecide` and `FormGuards.ConfirmedDeleteIsUndoable` hold for the handlers as declared, not for this wiring.
- TaskItem.HandleKeyDown: the event's key name is a datatype, `Enter | Escape | OtherKey(name)`, and `OtherKey` stands for every other name.
- TaskItem.InitEditState: the component sets its edit fields once, when it is mounted for a task id. Cancelling, or an undo while the editor stays mounted, does not reset them, so a reopened editor can show values that differ from the task. The model starts every editing session from the task, so `FormGuards.UntouchedEditIsNoOp` covers a freshly mounted editor only.
- Drag sensors and modifiers of the list. A drag handle's string id is modelled by the numeric task id it renders.
- `setCurrentFilter` and `setEditingTaskId` are modelled as plain setters without a contract.

## Findings

| source | as written | input that shows it | evidently intended | confidence | as-written member | corrected member |
|---|---|---|---|---|---|---|
| src/components/TaskForm.tsx:32-40 | A quick-schedule button (lines 64-68) puts a whole preset value, `YYYY-MM-DDTHH:MM`, into the date field. `handleSubmit` then appends `T` and a time to it. | The Today preset with value `2026-10-10T15:00` and no time picked is stored as `2026-10-10T15:00T09:00`. With 10:30 picked it is stored as `2026-10-10T15:00T10:30`. | The preset's date and time are stored, and a time the user picks replaces the preset's time, as the comment at line 67 says. | medium, not executed | TaskForm.CombineSchedule, TaskForm.QuickScheduleDoublesTime, TaskForm.QuickThenSubmitAsWritten | TaskForm.CombineScheduleFixed, TaskForm.ScheduleRoundTrip, TaskForm.HandleSubmitFixed, TaskForm.QuickThenSubmit |

=== FILE: category_manager.dfy ===
/**
  The category panel of `src/components/CategoryManager.tsx`: open/closed,
  the name being typed and the colour picked from a fixed palette; the guard
  on submitting a new category; which categories offer a delete button.
 */
module CategoryManager {
  import opened TaskTypes
  import Text

  const Palette: seq<string> := [
    "#3B82F6", "#10B981", "#F59E0B", "#EF4444", "#8B5CF6",
    "#F97316", "#06B6D4", "#84CC16", "#EC4899", "#6B7280"
  ]

  datatype Panel = Panel(isOpen: bool, name: string, color: string)

  /** Closed, no name, the first palette colour. */
  const InitialPanel: Panel := Panel(false, "", Palette[0])

  /** What the user can do with the panel; `Pick(i)` is the i-th colour button. */
  datatype PanelEvent = Open | Close | TypeName(name: string) | Pick(index: nat) | Submit

  datatype Step = Step(request: Option<(string, string)>, panel: Panel)

  /** `handleSubmit`: a blank name does nothing; otherwise request the trimmed name and reset. */
  function HandleSubmit(p: Panel): (r: Step)
    ensures r.request.None? <==> Text.AllSpace(p.name)
    ensures r.request.None? ==> r.panel == p
    ensures r.request.Some? ==>
              && r.request.value == (Text.Trim(p.name), p.color)
              && r.request.value.0 != [] && Text.IsTrimmed(r.request.value.0)
              && r.panel == Panel(false, "", Palette[0])
  {
    var name := Text.Trim(p.name);
    if name == [] then Step(None, p)
    else Step(Some((name, p.color)), Panel(false, "", Palette[0]))
  }

  /** One user action on the panel; the colour buttons exist only for the palette entries. */
  function Handle(p: Panel, e: PanelEvent): (r: Step)
    requires e.Pick? ==> e.index < |Palette|
    ensures r.request.Some? ==> e == Submit
    ensures e.Pick? ==> r.panel.color == Palette[e.index]
    ensures p.color in Palette ==> r.panel.color in Palette
  {
    match e
    case Open => Step(None, p.(isOpen := true))
    case Close => Step(None, p.(isOpen := false))
    case TypeName(n) => Step(None, p.(name := n))
    case Pick(i) => Step(None, p.(color := Palette[i]))
    case Submit => HandleSubmit(p)
  }

  /** Whether the row of a category shows a delete button. */
  predicate ShowsDeleteButton(c: Category) {
    c.id != "general"
  }

  /** The ids whose delete button is shown, in display order. */
  function DeletableIds(categories: seq<Category>): (r: seq<string>)
    ensures "general" !in r
    ensures forall i :: 0 <= i < |categories| && categories[i].id != "general" ==> categories[i].id in r
    ensures forall i :: 0 <= i < |r| ==> exists j :: 0 <= j < |categories| && categories[j].id == r[i]
    decreases |categories|
  {
    if categories == [] then []
    else
      var rest := DeletableIds(categories[1..]);
      assert forall i :: 0 <= i < |rest| ==> exists j :: 0 <= j < |categories| && categories[j].id == rest[i] by {
        forall i | 0 <= i < |rest| ensures exists j :: 0 <= j < |categories| && categories[j].id == rest[i] {
          var j :| 0 <= j < |categories[1..]| && categories[1..][j].id == rest[i];
          assert categories[j + 1].id == rest[i];
        }
      }
      if ShowsDeleteButton(categories[0]) then [categories[0].id] + rest else rest
  }

  /** Every run of panel events from the initial state keeps the selected colour in the palette. */
  lemma {:induction false} ColorStaysInPalette(events: seq<PanelEvent>, p: Panel)
    requires p.color in Palette
    requires forall i :: 0 <= i < |events| ==> (events[i].Pick? ==> events[i].index < |Palette|)
    ensures Run(p, events).color in Palette
    decreases |events|
  {
    if events != [] {
      ColorStaysInPalette(events[1..], Handle(p, events[0]).panel);
    }
  }

  /** The panel after a sequence of events. */
  function Run(p: Panel, events: seq<PanelEvent>): Panel
    requires forall i :: 0 <= i < |events| ==> (events[i].Pick? ==> events[i].index < |Palette|)
    decreases |events|
  {
    if events == [] then p else Run(Handle(p, events[0]).panel, events[1..])
  }
}

=== FILE: date_utils.dfy ===
/**
  `formatDate` of `src/utils/dateUtils.ts`: how long ago something happened,
  bucketed from the millisecond difference between now and then. The clock is
  a parameter: the function takes that difference directly.
 */
module DateUtils {
  import Text

  const MsPerMinute: int := 60000
  const MsPerHour: int := 3600000
  const MsPerDay: int := 86400000

  datatype Elapsed =
    | JustNow
    | MinutesAgo(minutes: nat)
    | HoursAgo(hours: nat)
    | Yesterday
    | DaysAgo(days: nat)

  /**
    The source divides with `Math.floor(diff / unit)`; for a positive unit
    that is Dafny's `/`. The result is described by the range `diff` lies in.
   */
  function FormatDate(diff: int): (r: Elapsed)
    ensures r == JustNow <==> diff < MsPerMinute
    ensures r.MinutesAgo? <==> MsPerMinute <= diff < MsPerHour
    ensures r.HoursAgo? <==> MsPerHour <= diff < MsPerDay
    ensures r == Yesterday <==> MsPerDay <= diff < 2 * MsPerDay
    ensures r.DaysAgo? <==> 2 * MsPerDay <= diff
    ensures r.MinutesAgo? ==> 1 <= r.minutes <= 59 && r.minutes * MsPerMinute <= diff < (r.minutes + 1) * MsPerMinute
    ensures r.HoursAgo? ==> 1 <= r.hours <= 23 && r.hours * MsPerHour <= diff < (r.hours + 1) * MsPerHour
    ensures r.DaysAgo? ==> r.days >= 2 && r.days * MsPerDay <= diff < (r.days + 1) * MsPerDay
  {
    var minutes := diff / MsPerMinute;
    var hours := diff / MsPerHour;
    var days := diff / MsPerDay;
    if minutes < 1 then JustNow
    else if minutes < 60 then MinutesAgo(minutes)
    else if hours < 24 then HoursAgo(hours)
    else if days == 1 then Yesterday
    else DaysAgo(days)
  }

  /** `r` is the decimal numeral for `n`, without leading zeros, followed by `unit`. */
  predicate Shows(r: string, n: nat, unit: string) {
    && |r| > |unit|
    && r[|r| - |unit|..] == unit
    && var digits := r[..|r| - |unit|];
       && (forall i :: 0 <= i < |digits| ==> '0' <= digits[i] <= '9')
       && Text.DigitsValue(digits) == n
       && (|digits| == 1 || digits[0] != '0')
  }

  /** `${n}` followed by `unit`. */
  function Count(n: nat, unit: string): (r: string)
    ensures Shows(r, n, unit)
  {
    var digits := Text.NatToString(n);
    Text.NatToStringRoundTrip(n);
    assert (digits + unit)[..|digits|] == digits;
    assert (digits + unit)[|digits|..] == unit;
    digits + unit
  }

  /** The text the source returns for each bucket: a count reads back as the number in the bucket. */
  function Describe(e: Elapsed): (r: string)
    ensures e == JustNow ==> r == "just now"
    ensures e == Yesterday ==> r == "yesterday"
    ensures e.MinutesAgo? ==> Shows(r, e.minutes, " minutes ago")
    ensures e.HoursAgo? ==> Shows(r, e.hours, " hours ago")
    ensures e.DaysAgo? ==> Shows(r, e.days, " days ago")
  {
    match e
    case JustNow => "just now"
    case MinutesAgo(m) => Count(m, " minutes ago")
    case HoursAgo(h) => Count(h, " hours ago")
    case Yesterday => "yesterday"
    case DaysAgo(d) => Count(d, " days ago")
  }

  /** Rank of a bucket, from most recent to oldest. */
  function Rank(e: Elapsed): nat {
    match e
    case JustNow => 0
    case MinutesAgo(_) => 1
    case HoursAgo(_) => 2
    case Yesterday => 3
    case DaysAgo(_) => 4
  }

  /** An older timestamp never lands in a more recent bucket, nor shows a smaller number in the same one. */
  lemma FormatDateMonotone(d1: int, d2: int)
    requires d1 <= d2
    ensures Rank(FormatDate(d1)) <= Rank(FormatDate(d2))
    ensures FormatDate(d1).MinutesAgo? && FormatDate(d2).MinutesAgo? ==> FormatDate(d1).minutes <= FormatDate(d2).minutes
    ensures FormatDate(d1).HoursAgo? && FormatDate(d2).HoursAgo? ==> FormatDate(d1).hours <= FormatDate(d2).hours
    ensures FormatDate(d1).DaysAgo? && FormatDate(d2).DaysAgo? ==> FormatDate(d1).days <= FormatDate(d2).days
  {
  }
}

=== FILE: form_guards.dfy ===
/**
  The guarantees the hook gets only from its callers: titles are non-empty
  because the forms refuse blank ones, the default category survives
  because its delete button is hidden, an untouched edit records nothing,
  and a confirmed delete can be undone.
 */
module FormGuards {
  import opened TaskTypes
  import opened TaskManager
  import opened TaskManagerInvariants
  import Text
  import TaskForm
  import TaskItem
  import CategoryManager
  import TaskList
  import UndoRedo

  /** A task added through the form has a non-blank, trimmed title and starts open. */
  lemma SubmittedTaskIsTitled(s: State, f: TaskForm.FormState, parseHours: string -> Hours)
    requires TaskForm.HandleSubmit(f, parseHours).payload.Some?
    ensures var t := AddTask(s, TaskForm.HandleSubmit(f, parseHours).payload.value).tasks[0];
            && t.text != [] && Text.IsTrimmed(t.text) && !t.completed && t.id == s.nextId
  {
  }

  /**
    Opening the editor on a stored task and saving without changes leaves the
    tasks and the history as they were; only editing mode ends.
   */
  lemma UntouchedEditIsNoOp(s: State, k: nat, showHours: Hours -> string, parseHours: string -> Hours)
    requires TasksValid(s)
    requires k < |s.tasks|
    requires var t := s.tasks[k];
             && t.text != [] && Text.IsTrimmed(t.text) && Text.IsTrimmed(t.description)
             && t.scheduledFor != Some("")
             && (t.estimatedHours.Some? ==>
                   showHours(t.estimatedHours.value) != [] && parseHours(showHours(t.estimatedHours.value)) == t.estimatedHours.value)
    ensures var d := TaskItem.HandleSave(TaskItem.InitEditState(s.tasks[k], showHours), parseHours);
            d.Some? && EditTask(s, s.tasks[k].id, d.value) == s.(editingTaskId := None)
  {
    TaskItem.UntouchedSaveReturnsTaskData(s.tasks[k], showHours, parseHours);
    EditOwnDataIsNoOp(s, k);
  }

  /** A category created from the panel has a trimmed non-blank name, a slug id without spaces, and a palette colour. */
  lemma PanelCategoryIsWellFormed(s: State, p: CategoryManager.Panel)
    requires p.color in CategoryManager.Palette
    requires CategoryManager.HandleSubmit(p).request.Some?
    ensures var (name, color) := CategoryManager.HandleSubmit(p).request.value;
            var c := AddCategory(s, name, color).categories[|s.categories|];
            && c.name != [] && Text.IsTrimmed(c.name) && c.name == Text.Trim(p.name)
            && c.id == Text.Slug(c.name) && c.id != [] && Text.NoSpace(c.id)
            && c.color in CategoryManager.Palette && c.count == 0
  {
  }

  /** Deleting any category the panel offers keeps the default category in the list. */
  lemma OfferedDeleteKeepsDefault(s: State, categoryId: string, g: nat)
    requires g < |s.categories| && s.categories[g].id == DefaultCategoryId
    requires categoryId in CategoryManager.DeletableIds(s.categories)
    ensures exists j :: 0 <= j < |DeleteCategory(s, categoryId).categories| &&
                        DeleteCategory(s, categoryId).categories[j].id == DefaultCategoryId
  {
    var kept := Seqs.Filter(s.categories, (c: Category) => c.id != categoryId);
    Seqs.FilterMembers(s.categories, (c: Category) => c.id != categoryId);
    assert s.categories[g] in kept;
    var j :| 0 <= j < |kept| && kept[j] == s.categories[g];
    assert DeleteCategory(s, categoryId).categories[j].id == DefaultCategoryId;
  }

  /** Confirming the dialog on a stored task deletes it, and undo puts it back where it was. */
  lemma ConfirmedDeleteIsUndoable(s: State, m: TaskList.DeleteModal, k: nat)
    requires TasksValid(s)
    requires k < |s.tasks|
    ensures var c := TaskList.HandleConfirmDelete(TaskList.HandleDeleteClick(m, s.tasks[k]));
            && c.deleteId == Some(s.tasks[k].id)
            && IndexOfId(DeleteTask(s, c.deleteId.value).tasks, s.tasks[k].id).None?
            && Undo(DeleteTask(s, c.deleteId.value)).tasks == s.tasks
  {
    var id := s.tasks[k].id;
    assert IndexOfId(s.tasks, id) == Some(k);
    UndoRedo.DeleteThenUndo(s, id);
  }
}

=== FILE: schedule_utils.dfy ===
/**
  The fixed part of `getScheduleOptions` in `src/utils/scheduleUtils.ts`:
  the four quick-schedule presets and the "next Monday" day offset. Calendar
  arithmetic is not modelled: a preset carries how it moves the current date
  and the hour it sets, and the UTC date and time of the instant it reaches
  are given to `ScheduleOptions` as a `Stamp` each.
 */
module ScheduleUtils {

  /** `getDay()` numbering: 0 is Sunday, 1 is Monday, ..., 6 is Saturday. */
  const Monday: int := 1

  /** Moving `k` days forward from `weekday` reaches a Monday. */
  predicate LandsOnMonday(weekday: int, k: int) {
    (weekday + k) % 7 == Monday
  }

  /** `(1 + 7 - weekday) % 7 || 7`: a zero remainder is falsy and becomes 7. */
  function DaysUntilMonday(weekday: int): (r: int)
    requires 0 <= weekday <= 6
    ensures 1 <= r <= 7
    ensures LandsOnMonday(weekday, r)
    ensures forall k :: 1 <= k < r ==> !LandsOnMonday(weekday, k)
  {
    var m := (1 + 7 - weekday) % 7;
    if m == 0 then 7 else m
  }

  /** On a Monday the next Monday is a week away, on a Sunday it is tomorrow. */
  lemma DaysUntilMondayEnds()
    ensures DaysUntilMonday(1) == 7
    ensures DaysUntilMonday(0) == 1
  {
  }

  datatype Shift = SameDay | AddDays(days: int) | AddMonths(months: int)

  /** An instant as `toISOString` shows it in UTC: `YYYY-MM-DD` and `HH:MM`. */
  datatype Stamp = Stamp(date: string, time: string)

  predicate ValidStamp(s: Stamp) {
    |s.date| == 10 && |s.time| == 5 && 'T' !in s.date && 'T' !in s.time
  }

  /** The shape of a `datetime-local` value: ten date characters, `T`, five time characters. */
  predicate IsDateTimeValue(v: string) {
    |v| == 16 && v[10] == 'T' && 'T' !in v[..10] && 'T' !in v[11..]
  }

  /** `formatDateTime`: `toISOString().slice(0, 16)` keeps the date, the `T` and hours and minutes. */
  function FormatDateTime(s: Stamp): (r: string)
    ensures ValidStamp(s) ==> IsDateTimeValue(r) && r[..10] == s.date && r[11..] == s.time
  {
    var r := s.date + "T" + s.time;
    assert ValidStamp(s) ==> r[..10] == s.date && r[11..] == s.time;
    r
  }

  datatype Preset = Preset(title: string, value: string, description: string, shift: Shift, hour: int, minute: int)

  /**
    The presets in display order. `monthLabel` stands for the locale-formatted
    day of the "Next Month" date, and the four stamps for the UTC form of the
    instants the presets reach; the model computes neither.
   */
  function ScheduleOptions(weekday: int, monthLabel: string, today: Stamp, tomorrow: Stamp, nextMonday: Stamp, nextMonth: Stamp): (r: seq<Preset>)
    requires 0 <= weekday <= 6
    ensures |r| == 4
    ensures r[0].title == "Today" && r[1].title == "Tomorrow" && r[2].title == "Next Week" && r[3].title == "Next Month"
    ensures r[0].hour == 17 && r[1].hour == 9 && r[2].hour == 9 && r[3].hour == 9
    ensures forall i :: 0 <= i < |r| ==> r[i].minute == 0
    ensures r[0].shift == SameDay && r[1].shift == AddDays(1) && r[3].shift == AddMonths(1)
    ensures r[2].shift.AddDays? && 1 <= r[2].shift.days <= 7 && LandsOnMonday(weekday, r[2].shift.days)
    ensures r[0].value == FormatDateTime(today) && r[1].value == FormatDateTime(tomorrow)
    ensures r[2].value == FormatDateTime(nextMonday) && r[3].value == FormatDateTime(nextMonth)
    ensures ValidStamp(today) && ValidStamp(tomorrow) && ValidStamp(nextMonday) && ValidStamp(nextMonth) ==>
              forall i :: 0 <= i < |r| ==> IsDateTimeValue(r[i].value)
  {
    [
      Preset("Today", FormatDateTime(today), "Today at 5:00 PM", SameDay, 17, 0),
      Preset("Tomorrow", FormatDateTime(tomorrow), "Tomorrow at 9:00 AM", AddDays(1), 9, 0),
      Preset("Next Week", FormatDateTime(nextMonday), "Next Monday at 9:00 AM", AddDays(DaysUntilMonday(weekday)), 9, 0),
      Preset("Next Month", FormatDateTime(nextMonth), monthLabel + " at 9:00 AM", AddMonths(1), 9, 0)
    ]
  }
}

=== FILE: seqs.dfy ===
/**
  Order-preserving selection over sequences: the `Array.prototype.filter`
  that the task manager uses for deletion, undo of an add, category counts,
  the filtered view and the statistics.
 */
module Seqs {

  /** The elements of `s` that satisfy `p`, in their original order. */
  function Filter<T(==)>(s: seq<T>, p: T -> bool): (r: seq<T>)
    ensures |r| <= |s|
    ensures forall i :: 0 <= i < |r| ==> p(r[i])
    decreases |s|
  {
    if s == [] then []
    else if p(s[0]) then [s[0]] + Filter(s[1..], p)
    else Filter(s[1..], p)
  }

  /** The filter keeps elements of `s` only, and every element of `s` that satisfies `p`. */
  lemma {:induction false} FilterMembers<T>(s: seq<T>, p: T -> bool)
    ensures forall x :: x in Filter(s, p) <==> x in s && p(x)
    decreases |s|
  {
    if s != [] {
      FilterMembers(s[1..], p);
      assert s == [s[0]] + s[1..];
    }
  }

  /** Filtering distributes over concatenation: the relative order of kept elements is preserved. */
  lemma {:induction false} FilterAppend<T>(a: seq<T>, b: seq<T>, p: T -> bool)
    ensures Filter(a + b, p) == Filter(a, p) + Filter(b, p)
    decreases |a|
  {
    if a == [] {
      assert a + b == b;
    } else {
      assert (a + b)[0] == a[0];
      assert (a + b)[1..] == a[1..] + b;
      FilterAppend(a[1..], b, p);
    }
  }

  /** When every element passes, filtering is the identity. */
  lemma {:induction false} FilterKeepsAll<T>(s: seq<T>, p: T -> bool)
    requires forall i :: 0 <= i < |s| ==> p(s[i])
    ensures Filter(s, p) == s
    decreases |s|
  {
    if s != [] {
      FilterKeepsAll(s[1..], p);
    }
  }

  /** When exactly the element at `k` fails, filtering removes that one position. */
  lemma {:induction false} FilterDropsOne<T>(s: seq<T>, p: T -> bool, k: nat)
    requires k < |s|
    requires !p(s[k])
    requires forall i :: 0 <= i < |s| && i != k ==> p(s[i])
    ensures Filter(s, p) == s[..k] + s[k + 1..]
    decreases |s|
  {
    var t := s[1..];
    assert forall i :: 0 <= i < |t| && i != k - 1 ==> p(t[i]) by {
      forall i | 0 <= i < |t| && i != k - 1 ensures p(t[i]) {
        assert t[i] == s[i + 1];
      }
    }
    if k == 0 {
      FilterKeepsAll(t, p);
      assert Filter(s, p) == Filter(t, p);
    } else {
      assert t[k - 1] == s[k];
      FilterDropsOne(t, p, k - 1);
      assert p(s[0]) && Filter(s, p) == [s[0]] + Filter(t, p);
      assert t[..k - 1] == s[1..k];
      assert t[k..] == s[k + 1..];
      assert s[..k] == [s[0]] + s[1..k];
    }
  }

  /** Complementary predicates split a sequence: the two filtered lengths add up to the whole. */
  lemma {:induction false} FilterPartition<T>(s: seq<T>, p: T -> bool, q: T -> bool)
    requires forall x :: q(x) == !p(x)
    ensures |Filter(s, p)| + |Filter(s, q)| == |s|
    decreases |s|
  {
    if s != [] {
      FilterPartition(s[1..], p, q);
    }
  }

  /** Length of a filter over `x :: s`, one step of unfolding. */
  lemma FilterLengthCons<T>(s: seq<T>, p: T -> bool)
    requires s != []
    ensures |Filter(s, p)| == (if p(s[0]) then 1 else 0) + |Filter(s[1..], p)|
  {
  }

  /** Filtering only depends on which elements pass. */
  lemma {:induction false} FilterSamePredicate<T>(s: seq<T>, p: T -> bool, q: T -> bool)
    requires forall i :: 0 <= i < |s| ==> p(s[i]) == q(s[i])
    ensures Filter(s, p) == Filter(s, q)
    decreases |s|
  {
    if s != [] {
      FilterSamePredicate(s[1..], p, q);
    }
  }
}

=== FILE: task_form.dfy ===
/**
  The add-task form of `src/components/TaskForm.tsx`: its field state, the
  payload `handleSubmit` builds for `addTask`, the reset after a submit, and
  the quick-schedule buttons. `parseFloat` is the parameter `parseHours`.
 */
module TaskForm {
  import opened TaskTypes
  import Text
  import ScheduleUtils

  datatype FormState = FormState(
    text: string,
    description: string,
    priority: Priority,
    scheduledDate: string,
    scheduledTime: string,
    estimatedHours: string,
    category: string,
    showCustomDate: bool)

  /** The state the form starts in and returns to after a submit. */
  const EmptyForm: FormState := FormState("", "", Medium, "", "", "", "general", false)

  /** The time used when a date is picked without one. */
  const DefaultTime: string := "09:00"

  /** `date ? (time ? date + 'T' + time : date + 'T09:00') : null` */
  function CombineSchedule(date: string, time: string): (r: Option<string>)
    ensures r.None? <==> date == []
  {
    if date == [] then None
    else if time != [] then Some(date + "T" + time)
    else Some(date + "T" + DefaultTime)
  }

  /** Split a stored schedule at its first `T` into date and time. */
  function SplitSchedule(s: string): (r: (string, string))
    ensures 'T' in s ==> s == r.0 + "T" + r.1 && 'T' !in r.0
    ensures 'T' !in s ==> r == (s, "")
    decreases |s|
  {
    if s == [] then ("", "")
    else if s[0] == 'T' then ("", s[1..])
    else
      var rest := SplitSchedule(s[1..]);
      assert s == [s[0]] + s[1..];
      ([s[0]] + rest.0, rest.1)
  }

  /** Splitting a date without `T` prefixed to `T` and anything gives the two back. */
  lemma {:induction false} SplitAfterDate(date: string, time: string)
    requires 'T' !in date
    ensures SplitSchedule(date + "T" + time) == (date, time)
    decreases |date|
  {
    if date == [] {
      assert date + "T" + time == ['T'] + time;
    } else {
      var whole := date + "T" + time;
      assert whole[0] == date[0] && date[0] != 'T';
      assert whole[1..] == date[1..] + "T" + time;
      assert 'T' !in date[1..];
      SplitAfterDate(date[1..], time);
      assert [date[0]] + date[1..] == date;
    }
  }

  /** The value of a quick-schedule preset splits into its date and its time. */
  lemma SplitDateTimeValue(v: string)
    requires ScheduleUtils.IsDateTimeValue(v)
    ensures 'T' in v
    ensures SplitSchedule(v) == (v[..10], v[11..])
  {
    assert v == v[..10] + "T" + v[11..];
    SplitAfterDate(v[..10], v[11..]);
  }

  /**
    The code as written: a quick-schedule preset puts a whole date-time value
    into the date field, and submitting appends a second `T` and a time, the
    picked one or 09:00. The stored text is no longer a date-time value, and
    its time part holds the preset's time followed by `T` and that time.
   */
  lemma QuickScheduleDoublesTime(v: string, time: string)
    requires ScheduleUtils.IsDateTimeValue(v)
    ensures CombineSchedule(v, time) == Some(v + "T" + (if time == [] then DefaultTime else time))
    ensures SplitSchedule(CombineSchedule(v, time).value) == (v[..10], v[11..] + "T" + (if time == [] then DefaultTime else time))
    ensures 'T' in SplitSchedule(CombineSchedule(v, time).value).1
    ensures !ScheduleUtils.IsDateTimeValue(CombineSchedule(v, time).value)
  {
    var t := if time == [] then DefaultTime else time;
    var stored := v + "T" + t;
    assert stored == v[..10] + "T" + (v[11..] + "T" + t);
    SplitAfterDate(v[..10], v[11..] + "T" + t);
    assert (v[11..] + "T" + t)[5] == 'T';
  }

  /**
    The combination the form evidently intends: a date field that already
    holds a time (a quick-schedule preset) keeps that time unless one was
    picked, in which case the picked time replaces it. A plain date is
    combined as the code does.
   */
  function CombineScheduleFixed(date: string, time: string): (r: Option<string>)
    ensures r.None? <==> date == []
    ensures 'T' !in date ==> r == CombineSchedule(date, time)
    ensures 'T' in date && time == [] ==> r == Some(date)
  {
    if date == [] then None
    else if 'T' in date then
      if time == [] then Some(date) else Some(SplitSchedule(date).0 + "T" + time)
    else CombineSchedule(date, time)
  }

  /**
    The stored schedule splits back into the picked date and the picked
    time. Without a picked time it keeps the time the date field already
    held, or 09:00 for a plain date.
   */
  lemma ScheduleRoundTrip(date: string, time: string)
    requires date != []
    ensures CombineScheduleFixed(date, time).Some?
    ensures SplitSchedule(CombineScheduleFixed(date, time).value) ==
              (SplitSchedule(date).0,
               if time != [] then time else if 'T' in date then SplitSchedule(date).1 else DefaultTime)
  {
    if 'T' in date {
      if time != [] {
        SplitAfterDate(SplitSchedule(date).0, time);
      }
    } else {
      SplitAfterDate(date, if time == [] then DefaultTime else time);
    }
  }

  /** `raw ? parseFloat(raw) : null`: an empty field means no estimate. */
  function HoursOf(raw: string, parseHours: string -> Hours): (r: Option<Hours>)
    ensures r.None? <==> raw == []
  {
    if raw == [] then None else Some(parseHours(raw))
  }

  datatype Submission = Submission(payload: Option<NewTask>, form: FormState)

  /**
    `handleSubmit` as written: a title that is blank after trimming does
    nothing; otherwise the trimmed payload goes to `addTask` and the form
    resets. The schedule is the date field followed by `T` and a time.
   */
  function HandleSubmit(f: FormState, parseHours: string -> Hours): (r: Submission)
    ensures r.payload.None? <==> Text.AllSpace(f.text)
    ensures r.payload.None? ==> r.form == f
    ensures r.payload.Some? ==>
              var p := r.payload.value;
              && r.form == EmptyForm
              && p.text == Text.Trim(f.text) && p.text != [] && Text.IsTrimmed(p.text)
              && p.description == Text.Trim(f.description)
              && !p.completed
              && p.priority == f.priority && p.category == f.category
              && p.scheduledFor == CombineSchedule(f.scheduledDate, f.scheduledTime)
              && (p.estimatedHours.None? <==> f.estimatedHours == [])
  {
    var title := Text.Trim(f.text);
    if title == [] then Submission(None, f)
    else
      var payload := NewTask(
        title,
        Text.Trim(f.description),
        false,
        f.priority,
        CombineSchedule(f.scheduledDate, f.scheduledTime),
        HoursOf(f.estimatedHours, parseHours),
        f.category);
      Submission(Some(payload), EmptyForm)
  }

  /**
    `handleSubmit` with the schedule combined as the form evidently intends.
    It differs from the code as written only in the schedule, and only when
    the date field already holds a time.
   */
  function HandleSubmitFixed(f: FormState, parseHours: string -> Hours): (r: Submission)
    ensures r.payload.None? <==> Text.AllSpace(f.text)
    ensures r.form == HandleSubmit(f, parseHours).form
    ensures r.payload.Some? ==>
              && r.payload.value.scheduledFor == CombineScheduleFixed(f.scheduledDate, f.scheduledTime)
              && r.payload.value.(scheduledFor := None) == HandleSubmit(f, parseHours).payload.value.(scheduledFor := None)
    ensures 'T' !in f.scheduledDate ==> r == HandleSubmit(f, parseHours)
  {
    var title := Text.Trim(f.text);
    if title == [] then Submission(None, f)
    else
      var payload := NewTask(
        title,
        Text.Trim(f.description),
        false,
        f.priority,
        CombineScheduleFixed(f.scheduledDate, f.scheduledTime),
        HoursOf(f.estimatedHours, parseHours),
        f.category);
      Submission(Some(payload), EmptyForm)
  }

  /** `handleQuickSchedule`: take the preset's date, keep the time, hide the custom picker. */
  function QuickSchedule(f: FormState, dateValue: string): (r: FormState)
    ensures r.scheduledDate == dateValue && !r.showCustomDate
    ensures r.scheduledTime == f.scheduledTime
    ensures r.(scheduledDate := f.scheduledDate, showCustomDate := f.showCustomDate) == f
  {
    f.(scheduledDate := dateValue, showCustomDate := false)
  }

  /**
    The code as written: choosing a preset and submitting stores the preset's
    value followed by a second `T` and the picked time, or 09:00, which is
    not a date-time value.
   */
  lemma QuickThenSubmitAsWritten(f: FormState, v: string, parseHours: string -> Hours)
    requires !Text.AllSpace(f.text)
    requires ScheduleUtils.IsDateTimeValue(v)
    ensures HandleSubmit(QuickSchedule(f, v), parseHours).payload.Some?
    ensures HandleSubmit(QuickSchedule(f, v), parseHours).payload.value.scheduledFor ==
              Some(v + "T" + (if f.scheduledTime == [] then DefaultTime else f.scheduledTime))
    ensures !ScheduleUtils.IsDateTimeValue(HandleSubmit(QuickSchedule(f, v), parseHours).payload.value.scheduledFor.value)
  {
    QuickScheduleDoublesTime(v, f.scheduledTime);
  }

  /**
    Corrected: choosing a preset and submitting stores the preset's date and
    time, or the preset's date with the picked time when one was picked.
   */
  lemma QuickThenSubmit(f: FormState, v: string, parseHours: string -> Hours)
    requires !Text.AllSpace(f.text)
    requires ScheduleUtils.IsDateTimeValue(v)
    ensures HandleSubmitFixed(QuickSchedule(f, v), parseHours).payload.Some?
    ensures f.scheduledTime == [] ==> HandleSubmitFixed(QuickSchedule(f, v), parseHours).payload.value.scheduledFor == Some(v)
    ensures HandleSubmitFixed(QuickSchedule(f, v), parseHours).payload.value.scheduledFor.Some?
    ensures SplitSchedule(HandleSubmitFixed(QuickSchedule(f, v), parseHours).payload.value.scheduledFor.value) ==
              (v[..10], if f.scheduledTime == [] then v[11..] else f.scheduledTime)
  {
    SplitDateTimeValue(v);
    ScheduleRoundTrip(v, f.scheduledTime);
  }
}

=== FILE: task_item.dfy ===
/**
  Editing one task in `src/components/TaskItem.tsx`: the edit fields are
  filled from the task, `handleSave` builds the payload for `editTask`, and
  `handleKeyDown` maps Enter and Escape to save and cancel. `toString` and
  `parseFloat` of the hours are the parameters `showHours` and `parseHours`.
 */
module TaskItem {
  import opened TaskTypes
  import Text
  import TaskForm

  datatype EditState = EditState(
    text: string,
    description: string,
    priority: Priority,
    scheduledFor: string,
    estimatedHours: string,
    category: string,
    showCustomDate: bool)

  /** The edit fields as the component initialises them; an absent schedule or estimate shows as `''`. */
  function InitEditState(t: Task, showHours: Hours -> string): (e: EditState)
    ensures e.text == t.text && e.description == t.description
    ensures e.priority == t.priority && e.category == t.category
    ensures t.scheduledFor.None? ==> e.scheduledFor == []
    ensures t.scheduledFor.Some? ==> e.scheduledFor == t.scheduledFor.value
    ensures t.estimatedHours.None? ==> e.estimatedHours == []
    ensures !e.showCustomDate
  {
    EditState(
      t.text,
      t.description,
      t.priority,
      match t.scheduledFor case None => "" case Some(v) => v,
      match t.estimatedHours case None => "" case Some(h) => showHours(h),
      t.category,
      false)
  }

  /** `editScheduledFor || null`: the empty string means no schedule. */
  function ScheduleOf(raw: string): (r: Option<string>)
    ensures r.None? <==> raw == []
    ensures r.Some? ==> r.value == raw
  {
    if raw == [] then None else Some(raw)
  }

  /** `handleSave`: a blank title sends nothing; otherwise all six editable fields are sent. */
  function HandleSave(e: EditState, parseHours: string -> Hours): (r: Option<EditData>)
    ensures r.None? <==> Text.AllSpace(e.text)
    ensures r.Some? ==>
              var d := r.value;
              && d.text == Text.Trim(e.text) && d.text != []
              && d.description == Text.Trim(e.description)
              && d.priority == e.priority && d.category == e.category
              && (d.scheduledFor.None? <==> e.scheduledFor == [])
              && (d.scheduledFor.Some? ==> d.scheduledFor.value == e.scheduledFor)
              && (d.estimatedHours.None? <==> e.estimatedHours == [])
  {
    var title := Text.Trim(e.text);
    if title == [] then None
    else
      Some(EditData(
        title,
        Text.Trim(e.description),
        e.priority,
        ScheduleOf(e.scheduledFor),
        TaskForm.HoursOf(e.estimatedHours, parseHours),
        e.category))
  }

  datatype KeyOutcome = Saved(data: EditData) | Cancelled | Ignored

  /** The `key` of a keyboard event, with the two names the editor reacts to singled out. */
  datatype Key = Enter | Escape | OtherKey(name: string)

  /** `handleKeyDown`: Enter without Shift saves, Escape cancels, every other key does nothing. */
  function HandleKeyDown(e: EditState, key: Key, shiftKey: bool, parseHours: string -> Hours): (r: KeyOutcome)
    ensures r.Cancelled? <==> key == Escape
    ensures r.Saved? ==> key == Enter && !shiftKey && HandleSave(e, parseHours) == Some(r.data)
    ensures key == Enter && !shiftKey && HandleSave(e, parseHours).Some? ==> r.Saved?
    ensures key.OtherKey? ==> r == Ignored
    ensures key == Enter && shiftKey ==> r == Ignored
  {
    if key == Enter && !shiftKey then
      match HandleSave(e, parseHours)
      case Some(d) => Saved(d)
      case None => Ignored
    else if key == Escape then Cancelled
    else Ignored
  }

  /** The quick-schedule buttons while editing: take the preset, hide the custom picker. */
  function QuickSchedule(e: EditState, value: string): (r: EditState)
    ensures r.scheduledFor == value && !r.showCustomDate
    ensures r.(scheduledFor := e.scheduledFor, showCustomDate := e.showCustomDate) == e
  {
    e.(scheduledFor := value, showCustomDate := false)
  }

  /**
    Saving the fields untouched sends the task's own data back, provided the
    title and description are already trimmed, a stored schedule is not the
    empty string, and the hours survive `toString` then `parseFloat`.
   */
  lemma UntouchedSaveReturnsTaskData(t: Task, showHours: Hours -> string, parseHours: string -> Hours)
    requires t.text != [] && Text.IsTrimmed(t.text)
    requires Text.IsTrimmed(t.description)
    requires t.scheduledFor != Some("")
    requires t.estimatedHours.Some? ==>
               showHours(t.estimatedHours.value) != [] && parseHours(showHours(t.estimatedHours.value)) == t.estimatedHours.value
    ensures HandleSave(InitEditState(t, showHours), parseHours) == Some(DataOf(t))
  {
    Text.TrimOfTrimmed(t.text);
    Text.TrimOfTrimmed(t.description);
  }

  /**
    Choosing a preset while editing and saving sends the preset's value as
    the schedule; the `datetime-local` field holds date and time together.
   */
  lemma QuickThenSave(e: EditState, value: string, parseHours: string -> Hours)
    requires !Text.AllSpace(e.text)
    requires value != []
    ensures HandleSave(QuickSchedule(e, value), parseHours).Some?
    ensures HandleSave(QuickSchedule(e, value), parseHours).value.scheduledFor == Some(value)
    ensures HandleSave(QuickSchedule(e, value), parseHours).value == HandleSave(e, parseHours).value.(scheduledFor := Some(value))
  {
  }
}

=== FILE: task_list.dfy ===
/**
  The list component of `src/components/TaskList.tsx`: turning a finished
  drag into a reorder request on the displayed list, and the delete
  confirmation dialog. A drag handle's id is the task id as a string; the
  model uses the numeric id, since rendering an integer is injective.
 */
module TaskList {
  import opened TaskTypes

  /**
    `handleDragEnd`: positions of the dragged and the target task in the
    displayed (already filtered) list, or nothing when the drop is outside
    any task, on itself, or on an id the list does not show.
   */
  function HandleDragEnd(displayed: seq<Task>, active: int, over: Option<int>): (r: Option<(nat, nat)>)
    ensures r.Some? <==>
              && over.Some? && over.value != active
              && IndexOfId(displayed, active).Some? && IndexOfId(displayed, over.value).Some?
    ensures r.Some? ==>
              && r.value.0 < |displayed| && r.value.1 < |displayed|
              && displayed[r.value.0].id == active && displayed[r.value.1].id == over.value
              && r.value.0 != r.value.1
  {
    match over
    case None => None
    case Some(target) =>
      if active == target then None
      else
        match (IndexOfId(displayed, active), IndexOfId(displayed, target))
        case (Some(from), Some(to)) => Some((from, to))
        case _ => None
  }

  datatype DeleteModal = DeleteModal(isOpen: bool, task: Option<Task>)

  const ClosedModal: DeleteModal := DeleteModal(false, None)

  /** The dialog is open exactly when it holds a task. */
  predicate Consistent(m: DeleteModal) {
    m.isOpen <==> m.task.Some?
  }

  /** `handleDeleteClick`: open the dialog on that task; nothing is deleted yet. */
  function HandleDeleteClick(m: DeleteModal, t: Task): (r: DeleteModal)
    ensures r.isOpen && r.task == Some(t)
  {
    DeleteModal(true, Some(t))
  }

  datatype Confirmation = Confirmation(deleteId: Option<int>, modal: DeleteModal)

  /** `handleConfirmDelete`: delete the held task and close; with no task held, nothing happens. */
  function HandleConfirmDelete(m: DeleteModal): (r: Confirmation)
    ensures m.task.None? ==> r == Confirmation(None, m)
    ensures m.task.Some? ==> r == Confirmation(Some(m.task.value.id), ClosedModal)
  {
    match m.task
    case None => Confirmation(None, m)
    case Some(t) => Confirmation(Some(t.id), ClosedModal)
  }

  /** `handleCancelDelete`: close and forget the task. */
  function HandleCancelDelete(m: DeleteModal): (r: DeleteModal)
    ensures !r.isOpen && r.task.None?
  {
    ClosedModal
  }

  /** Every handler keeps the dialog consistent. */
  lemma ModalStaysConsistent(m: DeleteModal, t: Task)
    requires Consistent(m)
    ensures Consistent(HandleDeleteClick(m, t))
    ensures Consistent(HandleConfirmDelete(m).modal)
    ensures Consistent(HandleCancelDelete(m))
  {
  }

  /** Clicking delete and confirming asks to delete exactly that task; cancelling deletes nothing. */
  lemma ClickThenDecide(m: DeleteModal, t: Task)
    ensures HandleConfirmDelete(HandleDeleteClick(m, t)) == Confirmation(Some(t.id), ClosedModal)
    ensures HandleCancelDelete(HandleDeleteClick(m, t)) == ClosedModal
  {
  }
}

=== FILE: task_manager.dfy ===
/**
  The in-memory task manager of `src/hooks/useTaskManager.ts` as a state
  machine. Each exported callback of the hook is a pure transition on
  `State`. A `setTasks` call is always followed by the effect that recomputes
  the category counts from the new list (lines 303-305); `WithTasks` models
  the two together.
 */
module TaskManager {
  import opened TaskTypes
  import opened Seqs
  import Text

  const MaxHistorySize: nat := 50

  /** The category every task of a deleted category falls back to. */
  const DefaultCategoryId: string := "general"

  const DefaultCategories: seq<Category> := [
    Category("general", "General", "#6B7280", 0),
    Category("work", "Work", "#3B82F6", 0),
    Category("personal", "Personal", "#10B981", 0),
    Category("urgent", "Urgent", "#EF4444", 0)
  ]

  datatype State = State(
    tasks: seq<Task>,
    categories: seq<Category>,
    currentFilter: string,
    editingTaskId: Option<int>,
    history: seq<HistoryAction>,
    historyIndex: int,
    nextId: int)

  const InitialState: State := State([], DefaultCategories, "all", None, [], -1, 1)

  // ---------------------------------------------------------------------------
  // Category counts
  // ---------------------------------------------------------------------------

  /** `taskList.filter(task => task.category === categoryId).length` */
  function CountIn(tasks: seq<Task>, categoryId: string): nat {
    |Filter(tasks, (t: Task) => t.category == categoryId)|
  }

  /** Every category's count is the number of tasks filed under its id. */
  predicate CountsAgree(categories: seq<Category>, tasks: seq<Task>) {
    forall i :: 0 <= i < |categories| ==> categories[i].count == CountIn(tasks, categories[i].id)
  }

  /** Same categories in the same order, counts aside. */
  predicate SameEntries(a: seq<Category>, b: seq<Category>) {
    && |a| == |b|
    && forall i :: 0 <= i < |a| ==> a[i].id == b[i].id && a[i].name == b[i].name && a[i].color == b[i].color
  }

  /** `updateCategoryCount`: recompute each category's count from `tasks`. */
  function UpdateCategoryCount(categories: seq<Category>, tasks: seq<Task>): (r: seq<Category>)
    ensures SameEntries(r, categories)
    ensures CountsAgree(r, tasks)
  {
    seq(|categories|, i requires 0 <= i < |categories| => categories[i].(count := CountIn(tasks, categories[i].id)))
  }

  /** `setTasks(tasks)` together with the recount effect it triggers. */
  function WithTasks(s: State, tasks: seq<Task>): (r: State)
    ensures r.tasks == tasks
    ensures SameEntries(r.categories, s.categories) && CountsAgree(r.categories, tasks)
    ensures r.history == s.history && r.historyIndex == s.historyIndex
    ensures r.nextId == s.nextId && r.editingTaskId == s.editingTaskId && r.currentFilter == s.currentFilter
  {
    s.(tasks := tasks, categories := UpdateCategoryCount(s.categories, tasks))
  }

  // ---------------------------------------------------------------------------
  // History
  // ---------------------------------------------------------------------------

  /** The history is bounded and the cursor points at an entry or is -1. */
  predicate HistoryWellFormed(history: seq<HistoryAction>, historyIndex: int) {
    |history| <= MaxHistorySize && -1 <= historyIndex < |history|
  }

  /** The end position `Array.prototype.slice(0, end)` stops at on a list of length `len`. */
  function SliceEnd(len: nat, end: int): (r: nat)
    ensures r <= len
    ensures 0 <= end <= len ==> r == end
  {
    if end < 0 then (if len + end < 0 then 0 else len + end)
    else if end > len then len
    else end
  }

  /**
    `addToHistory`: drop the entries after the cursor, append `action`, evict
    the oldest entry when the list outgrows the bound. The index moves by -1
    (eviction) and +1 (append), so it ends on the new entry either way.
   */
  function AddToHistory(history: seq<HistoryAction>, historyIndex: int, action: HistoryAction)
    : (r: (seq<HistoryAction>, int))
    ensures |r.0| >= 1 && r.0[|r.0| - 1] == action
    ensures HistoryWellFormed(history, historyIndex) ==>
              HistoryWellFormed(r.0, r.1) && r.1 == |r.0| - 1
    ensures HistoryWellFormed(history, historyIndex) && historyIndex + 1 < MaxHistorySize ==>
              r.0 == history[..historyIndex + 1] + [action]
    ensures HistoryWellFormed(history, historyIndex) && historyIndex + 1 == MaxHistorySize ==>
              r.0 == history[1..MaxHistorySize] + [action]
  {
    var kept := history[..SliceEnd(|history|, historyIndex + 1)] + [action];
    if |kept| > MaxHistorySize then (kept[1..], historyIndex - 1 + 1)
    else (kept, historyIndex + 1)
  }

  /** Record `action` in the state's history. */
  function Recorded(s: State, action: HistoryAction): (r: State)
    ensures r.tasks == s.tasks && r.categories == s.categories && r.nextId == s.nextId
    ensures r.editingTaskId == s.editingTaskId && r.currentFilter == s.currentFilter
    ensures (r.history, r.historyIndex) == AddToHistory(s.history, s.historyIndex, action)
  {
    var (h, i) := AddToHistory(s.history, s.historyIndex, action);
    s.(history := h, historyIndex := i)
  }

  /** `canUndo`: some recorded entry is applied, at or before the cursor. */
  function CanUndo(s: State): (r: bool)
    ensures HistoryWellFormed(s.history, s.historyIndex) ==> (r <==> s.history[..s.historyIndex + 1] != [])
  {
    s.historyIndex >= 0
  }

  /** `canRedo`: some undone entry waits after the cursor. */
  function CanRedo(s: State): (r: bool)
    ensures HistoryWellFormed(s.history, s.historyIndex) ==> (r <==> s.history[s.historyIndex + 1..] != [])
  {
    s.historyIndex < |s.history| - 1
  }

  // ---------------------------------------------------------------------------
  // Task list updates shared by the operations and by undo/redo
  // ---------------------------------------------------------------------------

  /** `prev.filter(t => t.id !== id)` */
  function RemoveId(tasks: seq<Task>, id: int): (r: seq<Task>)
    ensures forall i :: 0 <= i < |r| ==> r[i].id != id
  {
    Filter(tasks, (t: Task) => t.id != id)
  }

  /** Removing the only task holding `id` takes exactly its position out. */
  lemma RemoveIdAt(tasks: seq<Task>, id: int, k: nat)
    requires DistinctIds(tasks)
    requires IndexOfId(tasks, id) == Some(k)
    ensures RemoveId(tasks, id) == tasks[..k] + tasks[k + 1..]
  {
    FilterDropsOne(tasks, (t: Task) => t.id != id, k);
  }

  /** `prev.map(t => t.id === id ? { ...t, completed: !t.completed } : t)` */
  function FlipCompleted(tasks: seq<Task>, id: int): (r: seq<Task>)
    ensures |r| == |tasks|
    ensures forall i :: 0 <= i < |tasks| ==>
              r[i] == if tasks[i].id == id then tasks[i].(completed := !tasks[i].completed) else tasks[i]
  {
    seq(|tasks|, i requires 0 <= i < |tasks| =>
      if tasks[i].id == id then tasks[i].(completed := !tasks[i].completed) else tasks[i])
  }

  /** `prev.map(t => t.id === id ? { ...t, completed: b } : t)` */
  function SetCompleted(tasks: seq<Task>, id: int, b: bool): (r: seq<Task>)
    ensures |r| == |tasks|
    ensures forall i :: 0 <= i < |tasks| ==>
              r[i] == if tasks[i].id == id then tasks[i].(completed := b) else tasks[i]
  {
    seq(|tasks|, i requires 0 <= i < |tasks| =>
      if tasks[i].id == id then tasks[i].(completed := b) else tasks[i])
  }

  /** `prev.map(t => t.id === id ? { ...t, ...d } : t)` */
  function ApplyEdit(tasks: seq<Task>, id: int, d: EditData): (r: seq<Task>)
    ensures |r| == |tasks|
    ensures forall i :: 0 <= i < |tasks| ==>
              r[i] == if tasks[i].id == id then WithData(tasks[i], d) else tasks[i]
  {
    seq(|tasks|, i requires 0 <= i < |tasks| =>
      if tasks[i].id == id then WithData(tasks[i], d) else tasks[i])
  }

  /** `prev.map(t => t.category === from ? { ...t, category: 'general' } : t)` */
  function Reassign(tasks: seq<Task>, from: string): (r: seq<Task>)
    ensures |r| == |tasks|
    ensures forall i :: 0 <= i < |tasks| ==>
              r[i] == if tasks[i].category == from then tasks[i].(category := DefaultCategoryId) else tasks[i]
  {
    seq(|tasks|, i requires 0 <= i < |tasks| =>
      if tasks[i].category == from then tasks[i].(category := DefaultCategoryId) else tasks[i])
  }

  /** `list.splice(position, 0, t)`, which appends when `position` is past the end. */
  function InsertAt(tasks: seq<Task>, position: nat, t: Task): (r: seq<Task>)
    ensures |r| == |tasks| + 1
    ensures position <= |tasks| ==> r[position] == t && r[..position] == tasks[..position] && r[position + 1..] == tasks[position..]
    ensures position > |tasks| ==> r == tasks + [t]
  {
    if position <= |tasks| then tasks[..position] + [t] + tasks[position..] else tasks + [t]
  }

  // ---------------------------------------------------------------------------
  // Operations
  // ---------------------------------------------------------------------------

  /** `addCategory`: append a category whose id is the slug of its name; tasks and counts are untouched. */
  function AddCategory(s: State, name: string, color: string): (r: State)
    ensures |r.categories| == |s.categories| + 1
    ensures r.categories[..|s.categories|] == s.categories
    ensures r.categories[|s.categories|] == Category(Text.Slug(name), name, color, 0)
    ensures r.tasks == s.tasks && r.history == s.history && r.historyIndex == s.historyIndex
  {
    s.(categories := s.categories + [Category(Text.Slug(name), name, color, 0)])
  }

  /** `deleteCategory`: move its tasks to the default category and drop it from the list. */
  function DeleteCategory(s: State, categoryId: string): (r: State)
    ensures |r.tasks| == |s.tasks|
    ensures forall i :: 0 <= i < |s.tasks| ==>
              r.tasks[i] == if s.tasks[i].category == categoryId then s.tasks[i].(category := DefaultCategoryId) else s.tasks[i]
    ensures SameEntries(r.categories, Filter(s.categories, (c: Category) => c.id != categoryId))
    ensures forall i :: 0 <= i < |r.categories| ==> r.categories[i].id != categoryId
    ensures CountsAgree(r.categories, r.tasks)
    ensures r.history == s.history && r.historyIndex == s.historyIndex && r.nextId == s.nextId
  {
    var kept := Filter(s.categories, (c: Category) => c.id != categoryId);
    WithTasks(s.(categories := kept), Reassign(s.tasks, categoryId))
  }

  /** `addTask`: the new task, numbered `nextId`, goes to the front and is recorded. */
  function AddTask(s: State, data: NewTask): (r: State)
    ensures |r.tasks| == |s.tasks| + 1 && r.tasks[1..] == s.tasks
    ensures r.tasks[0].id == s.nextId && r.nextId == s.nextId + 1
    ensures r.tasks[0] == Task(s.nextId, data.text, data.description, data.completed, data.priority,
                               data.scheduledFor, data.estimatedHours, data.category)
    ensures |r.history| >= 1 && r.history[|r.history| - 1] == Add(r.tasks[0])
    ensures CountsAgree(r.categories, r.tasks) && SameEntries(r.categories, s.categories)
    ensures HistoryWellFormed(s.history, s.historyIndex) ==>
              HistoryWellFormed(r.history, r.historyIndex) && r.historyIndex == |r.history| - 1
  {
    var t := Task(s.nextId, data.text, data.description, data.completed, data.priority,
                  data.scheduledFor, data.estimatedHours, data.category);
    Recorded(WithTasks(s, [t] + s.tasks), Add(t)).(nextId := s.nextId + 1)
  }

  /** `toggleTask`: flip `completed` of the task with that id, recording its old and new value. */
  function ToggleTask(s: State, id: int): (r: State)
    ensures |r.tasks| == |s.tasks|
    ensures forall i :: 0 <= i < |s.tasks| && s.tasks[i].id != id ==> r.tasks[i] == s.tasks[i]
    ensures forall i :: 0 <= i < |s.tasks| && s.tasks[i].id == id ==>
              r.tasks[i] == s.tasks[i].(completed := !s.tasks[i].completed)
    ensures CountsAgree(r.categories, r.tasks) && SameEntries(r.categories, s.categories)
    ensures IndexOfId(s.tasks, id).None? ==> r.tasks == s.tasks && r.history == s.history && r.historyIndex == s.historyIndex
    ensures IndexOfId(s.tasks, id).Some? ==>
              var k := IndexOfId(s.tasks, id).value;
              |r.history| >= 1 && r.history[|r.history| - 1] == Toggle(id, s.tasks[k].completed, !s.tasks[k].completed)
    ensures r.nextId == s.nextId && r.editingTaskId == s.editingTaskId
  {
    var flipped := FlipCompleted(s.tasks, id);
    match IndexOfId(s.tasks, id)
    case None =>
      assert flipped == s.tasks;
      WithTasks(s, flipped)
    case Some(k) =>
      Recorded(WithTasks(s, flipped), Toggle(id, s.tasks[k].completed, !s.tasks[k].completed))
  }

  /**
    `deleteTask`: record the task and its position, then remove it. The
    source defers the removal by 300 ms for an animation; here it is immediate.
   */
  function DeleteTask(s: State, id: int): (r: State)
    ensures IndexOfId(s.tasks, id).None? ==> r == s
    ensures IndexOfId(s.tasks, id).Some? ==>
              var k := IndexOfId(s.tasks, id).value;
              && |r.history| >= 1 && r.history[|r.history| - 1] == Delete(s.tasks[k], k)
              && (forall i :: 0 <= i < |r.tasks| ==> r.tasks[i].id != id)
              && (DistinctIds(s.tasks) ==> r.tasks == s.tasks[..k] + s.tasks[k + 1..])
              && CountsAgree(r.categories, r.tasks)
    ensures SameEntries(r.categories, s.categories)
    ensures r.nextId == s.nextId && r.editingTaskId == s.editingTaskId
  {
    match IndexOfId(s.tasks, id)
    case None => s
    case Some(k) =>
      assert DistinctIds(s.tasks) ==> RemoveId(s.tasks, id) == s.tasks[..k] + s.tasks[k + 1..] by {
        if DistinctIds(s.tasks) {
          RemoveIdAt(s.tasks, id, k);
        }
      }
      Recorded(WithTasks(s, RemoveId(s.tasks, id)), Delete(s.tasks[k], k))
  }

  /**
    `editTask`: when some of the six editable fields differ, record the old
    and new values and apply the new ones; always leave editing mode.
   */
  function EditTask(s: State, id: int, data: EditData): (r: State)
    ensures r.editingTaskId == None
    ensures (IndexOfId(s.tasks, id).None? || DataOf(s.tasks[IndexOfId(s.tasks, id).value]) == data) ==>
              r == s.(editingTaskId := None)
    ensures IndexOfId(s.tasks, id).Some? && DataOf(s.tasks[IndexOfId(s.tasks, id).value]) != data ==>
              var k := IndexOfId(s.tasks, id).value;
              && |r.history| >= 1 && r.history[|r.history| - 1] == Edit(id, DataOf(s.tasks[k]), data)
              && |r.tasks| == |s.tasks|
              && DataOf(r.tasks[k]) == data && r.tasks[k].id == id
              && r.tasks[k].completed == s.tasks[k].completed
              && (forall i :: 0 <= i < |s.tasks| && s.tasks[i].id != id ==> r.tasks[i] == s.tasks[i])
              && CountsAgree(r.categories, r.tasks)
    ensures SameEntries(r.categories, s.categories)
    ensures r.nextId == s.nextId
  {
    match IndexOfId(s.tasks, id)
    case None => s.(editingTaskId := None)
    case Some(k) =>
      var previous := DataOf(s.tasks[k]);
      if previous != data then
        Recorded(WithTasks(s, ApplyEdit(s.tasks, id, data)), Edit(id, previous, data)).(editingTaskId := None)
      else
        s.(editingTaskId := None)
  }

  /** The task list after reverting `action` (`None` when the source's guard skips `setTasks`). */
  function Revert(action: HistoryAction, tasks: seq<Task>): Option<seq<Task>> {
    match action
    case Add(t) => Some(RemoveId(tasks, t.id))
    case Delete(t, position) => Some(InsertAt(tasks, position, t))
    // `action.taskId && ...`: an id of 0 is falsy and skips the update
    case Toggle(id, previous, _) => if id != 0 then Some(SetCompleted(tasks, id, previous)) else None
    case Edit(id, previous, _) => if id != 0 then Some(ApplyEdit(tasks, id, previous)) else None
  }

  /** The task list after re-applying `action`. */
  function Replay(action: HistoryAction, tasks: seq<Task>): Option<seq<Task>> {
    match action
    case Add(t) => Some([t] + tasks)
    case Delete(t, _) => Some(RemoveId(tasks, t.id))
    case Toggle(id, _, next) => if id != 0 then Some(SetCompleted(tasks, id, next)) else None
    case Edit(id, _, next) => if id != 0 then Some(ApplyEdit(tasks, id, next)) else None
  }

  function ApplyTasks(s: State, update: Option<seq<Task>>): State {
    match update
    case None => s
    case Some(tasks) => WithTasks(s, tasks)
  }

  /**
    `undo`: revert the entry under the cursor and move the cursor back. With
    the cursor past the end the source reads a missing entry and throws.
   */
  function Undo(s: State): (r: State)
    requires s.historyIndex < |s.history|
    ensures !CanUndo(s) ==> r == s
    ensures CanUndo(s) ==> r.historyIndex == s.historyIndex - 1 && r.editingTaskId == None
    ensures r.history == s.history && r.nextId == s.nextId && SameEntries(r.categories, s.categories)
    ensures CountsAgree(s.categories, s.tasks) ==> CountsAgree(r.categories, r.tasks)
  {
    if s.historyIndex < 0 then s
    else
      ApplyTasks(s, Revert(s.history[s.historyIndex], s.tasks))
        .(editingTaskId := None, historyIndex := s.historyIndex - 1)
  }

  /**
    `redo`: move the cursor forward and re-apply that entry. A cursor below
    -1 would make the source read a missing entry and throw.
   */
  function Redo(s: State): (r: State)
    requires s.historyIndex >= -1
    ensures !CanRedo(s) ==> r == s
    ensures CanRedo(s) ==> r.historyIndex == s.historyIndex + 1 && r.editingTaskId == None
    ensures r.history == s.history && r.nextId == s.nextId && SameEntries(r.categories, s.categories)
    ensures CountsAgree(s.categories, s.tasks) ==> CountsAgree(r.categories, r.tasks)
  {
    if s.historyIndex >= |s.history| - 1 then s
    else
      ApplyTasks(s, Replay(s.history[s.historyIndex + 1], s.tasks))
        .(editingTaskId := None, historyIndex := s.historyIndex + 1)
  }

  // ---------------------------------------------------------------------------
  // Views
  // ---------------------------------------------------------------------------

  /** Whether a task shows under `filter`; any value but the four keywords is a category id. */
  predicate Matches(filter: string, t: Task) {
    if filter == "active" then !t.completed
    else if filter == "completed" then t.completed
    else if filter == "high" then t.priority == High
    else if filter == "all" then true
    else t.category == filter
  }

  /** `getFilteredTasks` */
  function FilteredTasks(tasks: seq<Task>, filter: string): (r: seq<Task>)
    ensures |r| <= |tasks|
    ensures forall i :: 0 <= i < |r| ==> r[i] in tasks && Matches(filter, r[i])
    ensures forall i :: 0 <= i < |tasks| && Matches(filter, tasks[i]) ==> tasks[i] in r
  {
    FilterMembers(tasks, (t: Task) => Matches(filter, t));
    Filter(tasks, (t: Task) => Matches(filter, t))
  }

  datatype Stats = Stats(total: nat, completed: nat, pending: nat)

  /** `stats`: how many tasks there are, how many are done, how many are not. */
  function TaskStats(tasks: seq<Task>): (r: Stats)
    ensures r.total == |tasks|
    ensures r.completed + r.pending == r.total
  {
    var done := Filter(tasks, (t: Task) => t.completed);
    var open := Filter(tasks, (t: Task) => !t.completed);
    FilterPartition(tasks, (t: Task) => t.completed, (t: Task) => !t.completed);
    Stats(|tasks|, |done|, |open|)
  }

  function SetCurrentFilter(s: State, filter: string): State {
    s.(currentFilter := filter)
  }

  function SetEditingTaskId(s: State, id: Option<int>): State {
    s.(editingTaskId := id)
  }
}

=== FILE: task_manager_invariants.dfy ===
/**
  The invariants the hook's state keeps: identifiers are distinct, positive
  and below `nextId`; the history is bounded with the cursor on an entry or
  at -1; every category's count matches the task list; and the history
  agrees with the task list, in the sense that undoing back to the start and
  redoing to the end passes through id lists that are again distinct and
  issued. Every operation, undo and redo included, preserves them, except
  `addCategory`, which keeps them exactly when no task is already filed
  under the new id (`AddCategoryValidIff`).
 */
module TaskManagerInvariants {
  import opened TaskTypes
  import opened Seqs
  import opened TaskManager
  import Text

  /** Every id is positive and was handed out before `nextId`. */
  predicate IdsIssued(tasks: seq<Task>, nextId: int) {
    forall i :: 0 <= i < |tasks| ==> 0 < tasks[i].id < nextId
  }

  // ---------------------------------------------------------------------------
  // The ids along the history
  // ---------------------------------------------------------------------------

  /** The ids of `tasks`, in list order. */
  function Ids(tasks: seq<Task>): (r: seq<int>)
    ensures |r| == |tasks|
    ensures forall i :: 0 <= i < |tasks| ==> r[i] == tasks[i].id
  {
    seq(|tasks|, i requires 0 <= i < |tasks| => tasks[i].id)
  }

  /** Distinct ids, each positive and below `nextId`. */
  predicate IdsOk(ids: seq<int>, nextId: int) {
    && (forall i, j :: 0 <= i < j < |ids| ==> ids[i] != ids[j])
    && (forall i :: 0 <= i < |ids| ==> 0 < ids[i] < nextId)
  }

  /** How one history entry changes the list of ids when it is applied. */
  predicate IdStep(a: HistoryAction, before: seq<int>, after: seq<int>) {
    match a
    case Add(t) => after == [t.id] + before
    case Delete(t, k) => k < |before| && before[k] == t.id && after == before[..k] + before[k + 1..]
    case Toggle(_, _, _) => after == before
    case Edit(_, _, _) => after == before
  }

  /**
    `snaps[j]` is the id list before entry `j` is applied and `snaps[j + 1]`
    the one after it; every list in the chain is distinct and issued.
   */
  predicate Chain(history: seq<HistoryAction>, snaps: seq<seq<int>>, nextId: int) {
    && |snaps| == |history| + 1
    && (forall j :: 0 <= j < |history| ==> IdStep(history[j], snaps[j], snaps[j + 1]))
    && (forall j :: 0 <= j < |snaps| ==> IdsOk(snaps[j], nextId))
  }

  /** A chain for the state's history that passes through its task list at the cursor. */
  predicate Snapshots(s: State, snaps: seq<seq<int>>) {
    && Chain(s.history, snaps, s.nextId)
    && -1 <= s.historyIndex < |s.history|
    && snaps[s.historyIndex + 1] == Ids(s.tasks)
  }

  ghost predicate HistoryConsistent(s: State) {
    exists snaps :: Snapshots(s, snaps)
  }

  /** Everything `Valid` asks of the current state alone, without the history's snapshots. */
  predicate TasksValid(s: State) {
    && s.nextId >= 1
    && DistinctIds(s.tasks)
    && IdsIssued(s.tasks, s.nextId)
    && HistoryWellFormed(s.history, s.historyIndex)
    && CountsAgree(s.categories, s.tasks)
  }

  ghost predicate Valid(s: State) {
    TasksValid(s) && HistoryConsistent(s)
  }

  /** The id conditions of `Valid` are `IdsOk` of the id list. */
  lemma IdsOkOfTasks(tasks: seq<Task>, nextId: int)
    ensures IdsOk(Ids(tasks), nextId) <==> DistinctIds(tasks) && IdsIssued(tasks, nextId)
  {
    var ids := Ids(tasks);
    if IdsOk(ids, nextId) {
      assert forall i, j :: 0 <= i < j < |tasks| ==> tasks[i].id == ids[i] && tasks[j].id == ids[j];
    }
  }

  /** An id list issued below `n` is issued below any larger bound. */
  lemma IdsOkGrows(ids: seq<int>, n: int, n': int)
    requires IdsOk(ids, n) && n <= n'
    ensures IdsOk(ids, n')
  {
  }

  /** Without eviction the new entry and `next` are appended after the cursor. */
  lemma AppendExtendsChain(h: seq<HistoryAction>, i: int, snaps: seq<seq<int>>, n: int, n': int,
                           a: HistoryAction, next: seq<int>) returns (snaps': seq<seq<int>>)
    requires -1 <= i < |h| && Chain(h, snaps, n) && n <= n'
    requires IdStep(a, snaps[i + 1], next) && IdsOk(next, n')
    ensures Chain(h[..i + 1] + [a], snaps', n')
    ensures snaps'[i + 2] == next
  {
    var h' := h[..i + 1] + [a];
    snaps' := snaps[..i + 2] + [next];
    forall j | 0 <= j < |h'|
      ensures IdStep(h'[j], snaps'[j], snaps'[j + 1])
    {
      if j <= i {
        assert h'[j] == h[j] && snaps'[j] == snaps[j] && snaps'[j + 1] == snaps[j + 1];
      } else {
        assert h'[j] == a && snaps'[j] == snaps[i + 1] && snaps'[j + 1] == next;
      }
    }
    forall j | 0 <= j < |snaps'|
      ensures IdsOk(snaps'[j], n')
    {
      if j < i + 2 {
        assert snaps'[j] == snaps[j];
        IdsOkGrows(snaps[j], n, n');
      }
    }
  }

  /** With eviction the oldest entry and its snapshot drop off the front. */
  lemma EvictExtendsChain(h: seq<HistoryAction>, snaps: seq<seq<int>>, n: int, n': int,
                          a: HistoryAction, next: seq<int>) returns (snaps': seq<seq<int>>)
    requires |h| == MaxHistorySize && Chain(h, snaps, n) && n <= n'
    requires IdStep(a, snaps[MaxHistorySize], next) && IdsOk(next, n')
    ensures Chain(h[1..MaxHistorySize] + [a], snaps', n')
    ensures snaps'[MaxHistorySize] == next
  {
    var h' := h[1..MaxHistorySize] + [a];
    snaps' := snaps[1..MaxHistorySize + 1] + [next];
    forall j | 0 <= j < |h'|
      ensures IdStep(h'[j], snaps'[j], snaps'[j + 1])
    {
      if j < MaxHistorySize - 1 {
        assert h'[j] == h[j + 1] && snaps'[j] == snaps[j + 1] && snaps'[j + 1] == snaps[j + 2];
      } else {
        assert h'[j] == a && snaps'[j] == snaps[MaxHistorySize] && snaps'[j + 1] == next;
      }
    }
    forall j | 0 <= j < |snaps'|
      ensures IdsOk(snaps'[j], n')
    {
      if j < MaxHistorySize {
        assert snaps'[j] == snaps[j + 1];
        IdsOkGrows(snaps[j + 1], n, n');
      }
    }
  }

  /**
    Recording `a` keeps a chain: the entries the cursor had passed keep
    their snapshots (all but the oldest, if it is evicted) and `next` is the
    snapshot after the new entry.
   */
  lemma RecordExtendsChain(h: seq<HistoryAction>, i: int, snaps: seq<seq<int>>, n: int, n': int,
                           a: HistoryAction, next: seq<int>) returns (snaps': seq<seq<int>>)
    requires HistoryWellFormed(h, i) && Chain(h, snaps, n) && n <= n'
    requires IdStep(a, snaps[i + 1], next) && IdsOk(next, n')
    ensures Chain(AddToHistory(h, i, a).0, snaps', n')
    ensures snaps'[AddToHistory(h, i, a).1 + 1] == next
  {
    if i + 1 < MaxHistorySize {
      snaps' := AppendExtendsChain(h, i, snaps, n, n', a, next);
    } else {
      snaps' := EvictExtendsChain(h, snaps, n, n', a, next);
    }
  }

  /**
    A transition that records `a` and whose task list changes as `a`
    describes keeps the history consistent.
   */
  lemma RecordKeepsConsistent(s: State, r: State, a: HistoryAction)
    requires Valid(s)
    requires (r.history, r.historyIndex) == AddToHistory(s.history, s.historyIndex, a)
    requires s.nextId <= r.nextId
    requires IdStep(a, Ids(s.tasks), Ids(r.tasks))
    requires DistinctIds(r.tasks) && IdsIssued(r.tasks, r.nextId)
    ensures HistoryConsistent(r)
  {
    var snaps :| Snapshots(s, snaps);
    IdsOkOfTasks(r.tasks, r.nextId);
    var snaps' := RecordExtendsChain(s.history, s.historyIndex, snaps, s.nextId, r.nextId, a, Ids(r.tasks));
    assert Snapshots(r, snaps');
  }

  /** A transition that keeps history, cursor, `nextId` and the ids keeps the history consistent. */
  lemma SameIdsKeepConsistent(s: State, r: State)
    requires Valid(s)
    requires r.history == s.history && r.historyIndex == s.historyIndex && r.nextId == s.nextId
    requires Ids(r.tasks) == Ids(s.tasks)
    ensures HistoryConsistent(r)
  {
    var snaps :| Snapshots(s, snaps);
    assert Snapshots(r, snaps);
  }

  /** The hook starts valid: no tasks, ids from 1, an empty history. */
  lemma InitialStateValid()
    ensures Valid(InitialState)
    ensures InitialState.nextId == 1 && !CanUndo(InitialState) && !CanRedo(InitialState)
  {
    assert Snapshots(InitialState, [[]]);
  }

  /** Recounting when the counts already agree changes nothing. */
  lemma RecountIsIdentity(categories: seq<Category>, tasks: seq<Task>)
    requires CountsAgree(categories, tasks)
    ensures UpdateCategoryCount(categories, tasks) == categories
  {
    var r := UpdateCategoryCount(categories, tasks);
    assert forall i :: 0 <= i < |r| ==> r[i] == categories[i];
  }

  /** Recounting twice is recounting against the last list. */
  lemma RecountTwice(categories: seq<Category>, a: seq<Task>, b: seq<Task>)
    ensures UpdateCategoryCount(UpdateCategoryCount(categories, a), b) == UpdateCategoryCount(categories, b)
  {
    var x := UpdateCategoryCount(UpdateCategoryCount(categories, a), b);
    var y := UpdateCategoryCount(categories, b);
    assert forall i :: 0 <= i < |x| ==> x[i] == y[i];
  }

  /** Removing an id no task holds keeps the list. */
  lemma RemoveAbsentId(tasks: seq<Task>, id: int)
    requires forall i :: 0 <= i < |tasks| ==> tasks[i].id != id
    ensures RemoveId(tasks, id) == tasks
  {
    FilterKeepsAll(tasks, (t: Task) => t.id != id);
  }

  lemma AddTaskKeepsValid(s: State, data: NewTask)
    requires Valid(s)
    ensures Valid(AddTask(s, data))
  {
    var r := AddTask(s, data);
    var t := r.tasks[0];
    assert r.tasks == [t] + s.tasks;
    assert DistinctIds(r.tasks) && IdsIssued(r.tasks, r.nextId) by {
      forall i, j | 0 <= i < j < |r.tasks|
        ensures r.tasks[i].id != r.tasks[j].id
      {
        assert r.tasks[j] == s.tasks[j - 1];
        if i > 0 {
          assert r.tasks[i] == s.tasks[i - 1];
        }
      }
    }
    assert Ids(r.tasks) == [t.id] + Ids(s.tasks);
    RecordKeepsConsistent(s, r, Add(t));
  }

  lemma ToggleTaskKeepsValid(s: State, id: int)
    requires Valid(s)
    ensures Valid(ToggleTask(s, id))
  {
    var r := ToggleTask(s, id);
    assert Ids(r.tasks) == Ids(s.tasks);
    match IndexOfId(s.tasks, id)
    case None => SameIdsKeepConsistent(s, r);
    case Some(k) => RecordKeepsConsistent(s, r, Toggle(id, s.tasks[k].completed, !s.tasks[k].completed));
  }

  /** Toggling an id no task holds leaves the whole state as it was. */
  lemma ToggleUnknownIsNoOp(s: State, id: int)
    requires Valid(s)
    requires IndexOfId(s.tasks, id).None?
    ensures ToggleTask(s, id) == s
  {
    RecountIsIdentity(s.categories, s.tasks);
  }

  /** Taking position `k` out of a task list takes it out of the id list, and keeps ids distinct and issued. */
  lemma RemoveAtIds(tasks: seq<Task>, k: nat, nextId: int)
    requires k < |tasks|
    ensures Ids(tasks[..k] + tasks[k + 1..]) == Ids(tasks)[..k] + Ids(tasks)[k + 1..]
    ensures DistinctIds(tasks) ==> DistinctIds(tasks[..k] + tasks[k + 1..])
    ensures IdsIssued(tasks, nextId) ==> IdsIssued(tasks[..k] + tasks[k + 1..], nextId)
  {
    var rest := tasks[..k] + tasks[k + 1..];
    assert forall i :: 0 <= i < |rest| ==> rest[i] == tasks[if i < k then i else i + 1];
    var ids := Ids(tasks);
    assert Ids(rest) == ids[..k] + ids[k + 1..] by {
      assert forall i :: 0 <= i < |rest| ==> Ids(rest)[i] == ids[if i < k then i else i + 1];
    }
  }

  /** Removing the only task holding `id` removes its id from the id list and keeps the rest distinct. */
  lemma RemoveIdIds(tasks: seq<Task>, id: int, k: nat, nextId: int)
    requires DistinctIds(tasks) && IdsIssued(tasks, nextId)
    requires IndexOfId(tasks, id) == Some(k)
    ensures Ids(RemoveId(tasks, id)) == Ids(tasks)[..k] + Ids(tasks)[k + 1..]
    ensures DistinctIds(RemoveId(tasks, id)) && IdsIssued(RemoveId(tasks, id), nextId)
  {
    RemoveIdAt(tasks, id, k);
    RemoveAtIds(tasks, k, nextId);
  }

  lemma DeleteTaskKeepsValid(s: State, id: int)
    requires Valid(s)
    ensures Valid(DeleteTask(s, id))
  {
    match IndexOfId(s.tasks, id)
    case None =>
    case Some(k) =>
      RemoveIdIds(s.tasks, id, k, s.nextId);
      RecordKeepsConsistent(s, DeleteTask(s, id), Delete(s.tasks[k], k));
  }

  lemma EditTaskKeepsValid(s: State, id: int, data: EditData)
    requires Valid(s)
    ensures Valid(EditTask(s, id, data))
  {
    var r := EditTask(s, id, data);
    match IndexOfId(s.tasks, id)
    case None => SameIdsKeepConsistent(s, r);
    case Some(k) =>
      if DataOf(s.tasks[k]) != data {
        assert Ids(r.tasks) == Ids(s.tasks);
        RecordKeepsConsistent(s, r, Edit(id, DataOf(s.tasks[k]), data));
      } else {
        SameIdsKeepConsistent(s, r);
      }
  }

  /** With distinct ids, editing a task to the six fields it already has only ends editing mode. */
  lemma EditOwnDataIsNoOp(s: State, k: nat)
    requires DistinctIds(s.tasks)
    requires k < |s.tasks|
    ensures EditTask(s, s.tasks[k].id, DataOf(s.tasks[k])) == s.(editingTaskId := None)
  {
    UniquePosition(s.tasks, s.tasks[k].id, IndexOfId(s.tasks, s.tasks[k].id).value);
  }

  /** Reassigning category `from` to the default: `from` empties into the default, others keep their count. */
  lemma {:induction false} ReassignCounts(tasks: seq<Task>, from: string, c: string)
    requires from != DefaultCategoryId
    ensures CountIn(Reassign(tasks, from), c) ==
              if c == from then 0
              else if c == DefaultCategoryId then CountIn(tasks, DefaultCategoryId) + CountIn(tasks, from)
              else CountIn(tasks, c)
    decreases |tasks|
  {
    if tasks != [] {
      var r := Reassign(tasks, from);
      assert r[1..] == Reassign(tasks[1..], from);
      ReassignCounts(tasks[1..], from, c);
      FilterLengthCons(r, (t: Task) => t.category == c);
      FilterLengthCons(tasks, (t: Task) => t.category == c);
      FilterLengthCons(tasks, (t: Task) => t.category == DefaultCategoryId);
      FilterLengthCons(tasks, (t: Task) => t.category == from);
    }
  }

  lemma DeleteCategoryKeepsValid(s: State, categoryId: string)
    requires Valid(s)
    ensures Valid(DeleteCategory(s, categoryId))
  {
    var r := DeleteCategory(s, categoryId);
    assert Ids(r.tasks) == Ids(s.tasks);
    SameIdsKeepConsistent(s, r);
  }

  /**
    Adding a category keeps the counts right exactly when no task is already
    filed under its slug: the new entry starts at 0 and nothing recounts it.
   */
  lemma AddCategoryValidIff(s: State, name: string, color: string)
    requires Valid(s)
    ensures Valid(AddCategory(s, name, color)) <==> CountIn(s.tasks, Text.Slug(name)) == 0
  {
    var r := AddCategory(s, name, color);
    SameIdsKeepConsistent(s, r);
    assert r.categories[|s.categories|].count == 0;
    assert forall i :: 0 <= i < |s.categories| ==> r.categories[i] == s.categories[i];
  }

  // ---------------------------------------------------------------------------
  // Undo and redo
  // ---------------------------------------------------------------------------

  /** Inserting the deleted task back at its position restores the ids before the deletion. */
  lemma InsertRestoresIds(tasks: seq<Task>, k: nat, t: Task, before: seq<int>)
    requires k < |before| && before[k] == t.id
    requires Ids(tasks) == before[..k] + before[k + 1..]
    ensures Ids(InsertAt(tasks, k, t)) == before
  {
    var after := before[..k] + before[k + 1..];
    var r := InsertAt(tasks, k, t);
    assert r == tasks[..k] + [t] + tasks[k..];
    forall i | 0 <= i < |r|
      ensures r[i].id == before[i]
    {
      if i < k {
        assert r[i] == tasks[i] && after[i] == before[i];
      } else if i > k {
        assert r[i] == tasks[i - 1] && after[i - 1] == before[i];
      }
    }
  }

  /** Removing the front task whose id was added restores the ids before the addition. */
  lemma RemoveAddedIds(tasks: seq<Task>, t: Task, before: seq<int>)
    requires DistinctIds(tasks)
    requires Ids(tasks) == [t.id] + before
    ensures Ids(RemoveId(tasks, t.id)) == before
  {
    assert IndexOfId(tasks, t.id) == Some(0) by {
      assert Ids(tasks)[0] == t.id;
    }
    assert RemoveId(tasks, t.id) == tasks[1..] by {
      RemoveIdAt(tasks, t.id, 0);
      assert tasks[..0] + tasks[1..] == tasks[1..];
    }
    assert Ids(tasks[1..]) == before by {
      assert forall i :: 0 <= i < |before| ==> Ids(tasks[1..])[i] == Ids(tasks)[i + 1];
    }
  }

  /** Reverting an entry takes the id list from the snapshot after it back to the one before it. */
  lemma RevertIds(a: HistoryAction, tasks: seq<Task>, before: seq<int>, after: seq<int>, n: int)
    requires IdStep(a, before, after) && IdsOk(after, n)
    requires Ids(tasks) == after
    ensures Revert(a, tasks).None? ==> before == after
    ensures Revert(a, tasks).Some? ==> Ids(Revert(a, tasks).value) == before
  {
    match a
    case Add(t) =>
      IdsOkOfTasks(tasks, n);
      RemoveAddedIds(tasks, t, before);
    case Delete(t, k) =>
      InsertRestoresIds(tasks, k, t, before);
    case Toggle(id, previous, _) =>
      if id != 0 {
        assert Ids(SetCompleted(tasks, id, previous)) == Ids(tasks);
      }
    case Edit(id, previous, _) =>
      if id != 0 {
        assert Ids(ApplyEdit(tasks, id, previous)) == Ids(tasks);
      }
  }

  /** Replaying an entry takes the id list from the snapshot before it to the one after it. */
  lemma ReplayIds(a: HistoryAction, tasks: seq<Task>, before: seq<int>, after: seq<int>, n: int)
    requires IdStep(a, before, after) && IdsOk(before, n)
    requires Ids(tasks) == before
    ensures Replay(a, tasks).None? ==> before == after
    ensures Replay(a, tasks).Some? ==> Ids(Replay(a, tasks).value) == after
  {
    IdsOkOfTasks(tasks, n);
    match a
    case Add(t) =>
      assert Ids([t] + tasks) == [t.id] + before;
    case Delete(t, k) =>
      assert IndexOfId(tasks, t.id) == Some(k) by {
        assert tasks[k].id == t.id;
      }
      RemoveIdIds(tasks, t.id, k, n);
    case Toggle(id, _, next) =>
      if id != 0 {
        assert Ids(SetCompleted(tasks, id, next)) == Ids(tasks);
      }
    case Edit(id, _, next) =>
      if id != 0 {
        assert Ids(ApplyEdit(tasks, id, next)) == Ids(tasks);
      }
  }

  /**
    Undo keeps the state valid: the reverted list is the snapshot before the
    entry, which is distinct and issued, and the cursor moves onto it.
   */
  lemma UndoKeepsValid(s: State)
    requires Valid(s)
    ensures Valid(Undo(s))
  {
    if s.historyIndex >= 0 {
      var snaps :| Snapshots(s, snaps);
      var i := s.historyIndex;
      var r := Undo(s);
      RevertIds(s.history[i], s.tasks, snaps[i], snaps[i + 1], s.nextId);
      assert Ids(r.tasks) == snaps[i];
      IdsOkOfTasks(r.tasks, r.nextId);
      assert Snapshots(r, snaps);
    }
  }

  /** Redo keeps the state valid: the replayed list is the snapshot after the entry. */
  lemma RedoKeepsValid(s: State)
    requires Valid(s)
    ensures Valid(Redo(s))
  {
    if s.historyIndex < |s.history| - 1 {
      var snaps :| Snapshots(s, snaps);
      var i := s.historyIndex;
      var r := Redo(s);
      ReplayIds(s.history[i + 1], s.tasks, snaps[i + 1], snaps[i + 2], s.nextId);
      assert Ids(r.tasks) == snaps[i + 2];
      IdsOkOfTasks(r.tasks, r.nextId);
      assert Snapshots(r, snaps);
    }
  }
}

=== FILE: task_types.dfy ===
/**
  The records of `src/types/task.ts`: a task, a category, and the entries of
  the undo history, the last as a tagged union with one variant per kind of
  edit that the hook records.
 */
module TaskTypes {

  datatype Option<T> = None | Some(value: T)

  datatype Priority = Low | Medium | High

  /** Estimated hours: a JavaScript number the model never computes with. */
  type Hours = real

  /** A task as the hook stores it (`createdAt`, `dbId` and `sortOrder` are not modelled). */
  datatype Task = Task(
    id: int,
    text: string,
    description: string,
    completed: bool,
    priority: Priority,
    scheduledFor: Option<string>,
    estimatedHours: Option<Hours>,
    category: string)

  /** What the add form hands to `addTask`: a task without its identifier. */
  datatype NewTask = NewTask(
    text: string,
    description: string,
    completed: bool,
    priority: Priority,
    scheduledFor: Option<string>,
    estimatedHours: Option<Hours>,
    category: string)

  /** The six fields an edit may change and `editTask` compares. */
  datatype EditData = EditData(
    text: string,
    description: string,
    priority: Priority,
    scheduledFor: Option<string>,
    estimatedHours: Option<Hours>,
    category: string)

  datatype Category = Category(id: string, name: string, color: string, count: int)

  /** One reversible step of the undo history. */
  datatype HistoryAction =
    | Add(task: Task)
    | Delete(task: Task, position: nat)
    | Toggle(taskId: int, previousState: bool, newState: bool)
    | Edit(taskId: int, previousData: EditData, newData: EditData)

  /** The editable part of a task, the `previousData` the hook snapshots before an edit. */
  function DataOf(t: Task): EditData {
    EditData(t.text, t.description, t.priority, t.scheduledFor, t.estimatedHours, t.category)
  }

  /** `{ ...t, ...d }`: the task with its six editable fields replaced. */
  function WithData(t: Task, d: EditData): (r: Task)
    ensures DataOf(r) == d
    ensures r.id == t.id && r.completed == t.completed
  {
    t.(text := d.text, description := d.description, priority := d.priority,
       scheduledFor := d.scheduledFor, estimatedHours := d.estimatedHours, category := d.category)
  }

  /** `tasks.findIndex(t => t.id === id)`, with `None` for -1: the first position holding `id`. */
  function IndexOfId(tasks: seq<Task>, id: int): (r: Option<nat>)
    ensures r.None? <==> forall j :: 0 <= j < |tasks| ==> tasks[j].id != id
    ensures r.Some? ==> r.value < |tasks| && tasks[r.value].id == id
    ensures r.Some? ==> forall j :: 0 <= j < r.value ==> tasks[j].id != id
    decreases |tasks|
  {
    if tasks == [] then None
    else if tasks[0].id == id then Some(0)
    else match IndexOfId(tasks[1..], id)
      case None => None
      case Some(k) => Some(k + 1)
  }

  /** No two tasks share an identifier. */
  predicate DistinctIds(tasks: seq<Task>) {
    forall i, j :: 0 <= i < j < |tasks| ==> tasks[i].id != tasks[j].id
  }

  /** With distinct identifiers the first position holding `id` is the only one. */
  lemma UniquePosition(tasks: seq<Task>, id: int, k: nat)
    requires DistinctIds(tasks)
    requires IndexOfId(tasks, id) == Some(k)
    ensures forall j :: 0 <= j < |tasks| && j != k ==> tasks[j].id != id
  {
  }
}

=== FILE: text.dfy ===
/**
  The string primitives the forms and the hook use: `String.prototype.trim`,
  the white-space class `\s` of regular expressions, ASCII lower-casing, the
  category slug `name.toLowerCase().replace(/\s+/g, '-')`, and the decimal
  rendering of a non-negative integer inside a template literal.
 */
module Text {

  /** ECMAScript white space and line terminators, the set both `trim` and `\s` use. */
  predicate IsSpace(c: char) {
    || ('\t' <= c <= '\r')
    || c == ' '
    || c == '\U{00A0}'
    || c == '\U{1680}'
    || ('\U{2000}' <= c <= '\U{200A}')
    || c == '\U{2028}'
    || c == '\U{2029}'
    || c == '\U{202F}'
    || c == '\U{205F}'
    || c == '\U{3000}'
    || c == '\U{FEFF}'
  }

  predicate AllSpace(s: string) {
    forall i :: 0 <= i < |s| ==> IsSpace(s[i])
  }

  predicate NoSpace(s: string) {
    forall i :: 0 <= i < |s| ==> !IsSpace(s[i])
  }

  /** Neither end of `s` is white space: what `trim` returns. */
  predicate IsTrimmed(s: string) {
    s == [] || (!IsSpace(s[0]) && !IsSpace(s[|s| - 1]))
  }

  /** Drops leading white space; the result is a suffix of `s`. */
  function TrimStart(s: string): (r: string)
    ensures |r| <= |s| && r == s[|s| - |r|..]
    ensures forall i :: 0 <= i < |s| - |r| ==> IsSpace(s[i])
    ensures r != [] ==> !IsSpace(r[0])
    decreases |s|
  {
    if s != [] && IsSpace(s[0]) then TrimStart(s[1..]) else s
  }

  /** The length of the run of white space `s` starts with. */
  function LeadingSpaces(s: string): (n: nat)
    ensures n <= |s|
    ensures forall k :: 0 <= k < n ==> IsSpace(s[k])
    ensures n < |s| ==> !IsSpace(s[n])
    decreases |s|
  {
    if s != [] && IsSpace(s[0]) then 1 + LeadingSpaces(s[1..]) else 0
  }

  /** The length of the run of white space `s` ends with, not reaching below index `from`. */
  function TrailingSpaces(s: string, from: nat): (n: nat)
    requires from <= |s|
    ensures n <= |s| - from
    ensures forall k :: |s| - n <= k < |s| ==> IsSpace(s[k])
    ensures from + n < |s| ==> !IsSpace(s[|s| - 1 - n])
    decreases |s|
  {
    if from < |s| && IsSpace(s[|s| - 1]) then 1 + TrailingSpaces(s[..|s| - 1], from) else 0
  }

  /** `s.trim()`: the slice of `s` left after removing white space from both ends. */
  function Trim(s: string): (r: string)
    ensures IsTrimmed(r)
    ensures r == [] <==> AllSpace(s)
    ensures exists i, j ::
              && 0 <= i <= j <= |s|
              && r == s[i..j]
              && (forall k :: 0 <= k < i ==> IsSpace(s[k]))
              && (forall k :: j <= k < |s| ==> IsSpace(s[k]))
  {
    var i := LeadingSpaces(s);
    var j := |s| - TrailingSpaces(s, i);
    TrimBounds(s, i, j);
    s[i..j]
  }

  /**
    Between a leading run of white space ending at `i` and a trailing one
    starting at `j`, neither reaching past the other's end, lies a trimmed
    slice, empty exactly when `s` is all white space.
   */
  lemma TrimBounds(s: string, i: nat, j: nat)
    requires i <= j <= |s|
    requires forall k :: 0 <= k < i ==> IsSpace(s[k])
    requires i < |s| ==> !IsSpace(s[i])
    requires forall k :: j <= k < |s| ==> IsSpace(s[k])
    requires i < j ==> !IsSpace(s[j - 1])
    ensures IsTrimmed(s[i..j])
    ensures s[i..j] == [] <==> AllSpace(s)
  {
    if i < |s| {
      assert !AllSpace(s);
    }
  }

  /** A trimmed string is its own trim. */
  lemma {:induction false} TrimOfTrimmed(s: string)
    requires IsTrimmed(s)
    ensures Trim(s) == s
  {
    assert LeadingSpaces(s) == 0;
    assert TrailingSpaces(s, 0) == 0;
  }

  /** Trimming twice is trimming once. */
  lemma TrimIdempotent(s: string)
    ensures Trim(Trim(s)) == Trim(s)
  {
    TrimOfTrimmed(Trim(s));
  }

  predicate IsUpper(c: char) {
    'A' <= c <= 'Z'
  }

  predicate NoUpper(s: string) {
    forall i :: 0 <= i < |s| ==> !IsUpper(s[i])
  }

  /** `toLowerCase` on one character, for the ASCII letters. */
  function ToLower(c: char): (r: char)
    ensures !IsUpper(r)
    ensures IsSpace(r) <==> IsSpace(c)
    ensures !IsUpper(c) ==> r == c
  {
    if IsUpper(c) then (c as int + 32) as char else c
  }

  function LowerAll(s: string): (r: string)
    ensures |r| == |s|
    ensures forall i :: 0 <= i < |s| ==> r[i] == ToLower(s[i])
  {
    seq(|s|, i requires 0 <= i < |s| => ToLower(s[i]))
  }

  /** `.replace(/\s+/g, '-')`: every maximal run of white space becomes one dash. */
  function ReplaceSpaceRuns(s: string): (r: string)
    ensures NoSpace(r)
    ensures |r| <= |s|
    ensures NoUpper(s) ==> NoUpper(r)
    ensures r == [] <==> s == []
    decreases |s|
  {
    if s == [] then []
    else if IsSpace(s[0]) then
      var rest := TrimStart(s);
      assert NoUpper(s) ==> NoUpper(rest) by {
        if NoUpper(s) {
          forall i | 0 <= i < |rest| ensures !IsUpper(rest[i]) {
            assert rest[i] == s[|s| - |rest| + i];
          }
        }
      }
      "-" + ReplaceSpaceRuns(rest)
    else
      [s[0]] + ReplaceSpaceRuns(s[1..])
  }

  /** The category identifier derived from its display name. */
  function Slug(name: string): (r: string)
    ensures NoSpace(r)
    ensures NoUpper(r)
    ensures r == [] <==> name == []
  {
    ReplaceSpaceRuns(LowerAll(name))
  }

  /** A string without white space passes the run replacement untouched. */
  lemma {:induction false} ReplaceSpaceRunsOfNoSpace(s: string)
    requires NoSpace(s)
    ensures ReplaceSpaceRuns(s) == s
    decreases |s|
  {
    if s != [] {
      ReplaceSpaceRunsOfNoSpace(s[1..]);
    }
  }

  /**
    A leading run of white space becomes one dash and processing resumes at
    the first character after it.
   */
  lemma RunAtFront(run: string, b: string)
    requires run != [] && AllSpace(run)
    requires b == [] || !IsSpace(b[0])
    ensures ReplaceSpaceRuns(run + b) == "-" + ReplaceSpaceRuns(b)
  {
    assert (run + b)[0] == run[0];
    TrimStartOfRun(run, b);
  }

  lemma {:induction false} TrimStartOfRun(run: string, b: string)
    requires AllSpace(run)
    requires b == [] || !IsSpace(b[0])
    ensures TrimStart(run + b) == b
    decreases |run|
  {
    if run != [] {
      assert (run + b)[1..] == run[1..] + b;
      TrimStartOfRun(run[1..], b);
    } else {
      assert run + b == b;
    }
  }

  /** Leading white space ends inside `a` when `a` ends in a character that is not white space. */
  lemma {:induction false} TrimStartAppend(a: string, b: string)
    requires a != [] && !IsSpace(a[|a| - 1])
    ensures TrimStart(a + b) == TrimStart(a) + b
    decreases |a|
  {
    if IsSpace(a[0]) {
      assert (a + b)[1..] == a[1..] + b;
      TrimStartAppend(a[1..], b);
    }
  }

  lemma SeqAssoc(x: string, y: string, z: string)
    ensures x + (y + z) == (x + y) + z
  {
  }

  /** A character that is not white space is kept, and replacement continues after it. */
  lemma RunsOfCons(c: char, s: string)
    requires !IsSpace(c)
    ensures ReplaceSpaceRuns([c] + s) == [c] + ReplaceSpaceRuns(s)
  {
    assert ([c] + s)[1..] == s;
  }

  /**
    A split right after a character that is not white space cuts no run, so
    the replacement works on the two parts independently. With `RunAtFront`
    and `ReplaceSpaceRunsOfNoSpace` this fixes the result for every input:
    the characters that are not white space are kept in order and each run
    between them becomes one dash.
   */
  lemma {:induction false} ReplaceSpaceRunsAppend(a: string, b: string)
    requires a != [] && !IsSpace(a[|a| - 1])
    ensures ReplaceSpaceRuns(a + b) == ReplaceSpaceRuns(a) + ReplaceSpaceRuns(b)
    decreases |a|
  {
    if IsSpace(a[0]) {
      var rest := TrimStart(a);
      TrimStartAppend(a, b);
      assert rest != [] && rest[|rest| - 1] == a[|a| - 1];
      ReplaceSpaceRunsAppend(rest, b);
      assert (a + b)[0] == a[0];
      assert ReplaceSpaceRuns(a + b) == "-" + ReplaceSpaceRuns(rest + b);
      assert ReplaceSpaceRuns(a) == "-" + ReplaceSpaceRuns(rest);
      SeqAssoc("-", ReplaceSpaceRuns(rest), ReplaceSpaceRuns(b));
    } else {
      var tail := a[1..];
      assert a == [a[0]] + tail;
      assert a + b == [a[0]] + (tail + b);
      RunsOfCons(a[0], tail + b);
      RunsOfCons(a[0], tail);
      if tail == [] {
        assert tail + b == b;
        assert ReplaceSpaceRuns(tail) == [];
      } else {
        ReplaceSpaceRunsAppend(tail, b);
      }
      SeqAssoc([a[0]], ReplaceSpaceRuns(tail), ReplaceSpaceRuns(b));
    }
  }

  lemma LowerAllAppend(a: string, b: string)
    ensures LowerAll(a + b) == LowerAll(a) + LowerAll(b)
  {
    var l := LowerAll(a + b);
    assert forall i :: 0 <= i < |a + b| ==> l[i] == (LowerAll(a) + LowerAll(b))[i];
  }

  /** The slug of a name is built part by part across a split after a character that is not white space. */
  lemma SlugAppend(a: string, b: string)
    requires a != [] && !IsSpace(a[|a| - 1])
    ensures Slug(a + b) == Slug(a) + Slug(b)
  {
    LowerAllAppend(a, b);
    ReplaceSpaceRunsAppend(LowerAll(a), LowerAll(b));
  }

  /**
    Two words with a run of white space between them: each is lower-cased
    and the run becomes one dash.
   */
  lemma SlugOfTwoWords(first: string, run: string, second: string)
    requires first != [] && NoSpace(first) && NoSpace(second)
    requires run != [] && AllSpace(run)
    ensures Slug(first + run + second) == LowerAll(first) + "-" + LowerAll(second)
  {
    assert first + run + second == first + (run + second);
    SlugAppend(first, run + second);
    SlugOfWord(first);
    SlugOfRunThenWord(run, second);
    SeqAssoc(LowerAll(first), "-", LowerAll(second));
  }

  /** A name without white space: the slug is the name in lower case. */
  lemma SlugOfWord(word: string)
    requires NoSpace(word)
    ensures Slug(word) == LowerAll(word)
  {
    assert NoSpace(LowerAll(word));
    ReplaceSpaceRunsOfNoSpace(LowerAll(word));
  }

  /** A run of white space of any length and kind, then a word: a dash and then the word in lower case. */
  lemma SlugOfRunThenWord(run: string, word: string)
    requires run != [] && AllSpace(run)
    requires NoSpace(word)
    ensures Slug(run + word) == "-" + LowerAll(word)
  {
    var lr, lw := LowerAll(run), LowerAll(word);
    LowerAllAppend(run, word);
    assert lr != [] && AllSpace(lr);
    assert NoSpace(lw);
    assert lw == [] || !IsSpace(lw[0]);
    RunAtFront(lr, lw);
    ReplaceSpaceRunsOfNoSpace(lw);
  }

  /** One space and then a word: a dash and then the word in lower case. */
  lemma SlugOfSpaceThenWord(word: string)
    requires NoSpace(word)
    ensures Slug(" " + word) == "-" + LowerAll(word)
  {
    SlugOfRunThenWord(" ", word);
  }

  /** A slug is already a slug: deriving the identifier again changes nothing. */
  lemma SlugIdempotent(name: string)
    ensures Slug(Slug(name)) == Slug(name)
  {
    var r := Slug(name);
    assert LowerAll(r) == r;
    ReplaceSpaceRunsOfNoSpace(r);
  }

  /** A one-word name: the slug is the name in lower case. */
  lemma SlugOfOneWord()
    ensures Slug("Work") == "work"
  {
    var l := LowerAll("Work");
    assert ToLower('W') == 'w';
    assert l == [l[0], l[1], l[2], l[3]];
    assert l == "work";
    ReplaceSpaceRunsOfNoSpace("work");
  }

  function DigitChar(d: nat): (c: char)
    requires d < 10
    ensures '0' <= c <= '9'
    ensures c as int - '0' as int == d
  {
    (d + '0' as int) as char
  }

  /** Decimal rendering of `n`, as a template literal shows a non-negative integer. */
  function NatToString(n: nat): (r: string)
    ensures |r| >= 1
    ensures forall i :: 0 <= i < |r| ==> '0' <= r[i] <= '9'
    ensures n > 0 ==> r[0] != '0'
    decreases n
  {
    if n < 10 then [DigitChar(n)] else NatToString(n / 10) + [DigitChar(n % 10)]
  }

  /** The number a string of decimal digits denotes. */
  function DigitsValue(s: string): nat
    requires forall i :: 0 <= i < |s| ==> '0' <= s[i] <= '9'
    decreases |s|
  {
    if s == [] then 0 else DigitsValue(s[..|s| - 1]) * 10 + (s[|s| - 1] as int - '0' as int)
  }

  /** Reading the rendered digits back gives the number. */
  lemma {:induction false} NatToStringRoundTrip(n: nat)
    ensures DigitsValue(NatToString(n)) == n
    decreases n
  {
    if n >= 10 {
      NatToStringRoundTrip(n / 10);
      var r := NatToString(n);
      assert r[..|r| - 1] == NatToString(n / 10);
    }
  }
}

=== FILE: undo_redo.dfy ===
/**
  Round trips of the undo history: after each recorded operation, `undo`
  restores the previous task list and counts, and `redo` right after brings
  back the state the operation produced (with editing mode left).
 */
module UndoRedo {
  import opened TaskTypes
  import opened Seqs
  import opened TaskManager
  import opened TaskManagerInvariants

  /** The cursor returns to where it was, unless recording evicted the oldest entry. */
  predicate CursorRestored(before: State, after: State) {
    before.historyIndex + 1 < MaxHistorySize ==> after.historyIndex == before.historyIndex
  }

  /** Undo, then redo, of the operation that produced `s'` out of a state with counts `categories`. */
  lemma RedoAfterUndo(s': State, categories: seq<Category>, previous: seq<Task>)
    requires HistoryWellFormed(s'.history, s'.historyIndex)
    requires |s'.history| >= 1 && s'.historyIndex == |s'.history| - 1
    requires s'.categories == UpdateCategoryCount(categories, s'.tasks)
    requires Revert(s'.history[s'.historyIndex], s'.tasks) == Some(previous)
    requires Replay(s'.history[s'.historyIndex], previous) == Some(s'.tasks)
    ensures Undo(s').tasks == previous
    ensures Undo(s').categories == UpdateCategoryCount(categories, previous)
    ensures Redo(Undo(s')) == s'.(editingTaskId := None)
  {
    RecountTwice(categories, s'.tasks, previous);
    RecountTwice(categories, previous, s'.tasks);
  }

  lemma {:induction false} AddThenUndo(s: State, data: NewTask)
    requires TasksValid(s)
    ensures Undo(AddTask(s, data)).tasks == s.tasks
    ensures Undo(AddTask(s, data)).categories == s.categories
    ensures CursorRestored(s, Undo(AddTask(s, data)))
    ensures Redo(Undo(AddTask(s, data))) == AddTask(s, data).(editingTaskId := None)
  {
    var s' := AddTask(s, data);
    RemoveAbsentId(s.tasks, s'.tasks[0].id);
    assert s'.tasks == [s'.tasks[0]] + s.tasks;
    FilterAppend([s'.tasks[0]], s.tasks, (t: Task) => t.id != s'.tasks[0].id);
    RedoAfterUndo(s', s.categories, s.tasks);
    RecountIsIdentity(s.categories, s.tasks);
  }

  /** Inserting a removed task back at its position restores the list. */
  lemma InsertRestoresRemoved(tasks: seq<Task>, k: nat)
    requires k < |tasks|
    ensures InsertAt(tasks[..k] + tasks[k + 1..], k, tasks[k]) == tasks
  {
    var rest := tasks[..k] + tasks[k + 1..];
    assert rest[..k] == tasks[..k];
    assert rest[k..] == tasks[k + 1..];
    assert tasks == tasks[..k] + [tasks[k]] + tasks[k + 1..];
  }

  lemma {:induction false} DeleteThenUndo(s: State, id: int)
    requires TasksValid(s)
    requires IndexOfId(s.tasks, id).Some?
    ensures Undo(DeleteTask(s, id)).tasks == s.tasks
    ensures Undo(DeleteTask(s, id)).categories == s.categories
    ensures CursorRestored(s, Undo(DeleteTask(s, id)))
    ensures Redo(Undo(DeleteTask(s, id))) == DeleteTask(s, id).(editingTaskId := None)
  {
    var k := IndexOfId(s.tasks, id).value;
    var s' := DeleteTask(s, id);
    assert s'.tasks == s.tasks[..k] + s.tasks[k + 1..];
    InsertRestoresRemoved(s.tasks, k);
    RedoAfterUndo(s', s.categories, s.tasks);
    RecountIsIdentity(s.categories, s.tasks);
  }

  /** With distinct ids, setting the flag of a flipped task back to its old value restores the list. */
  lemma SetBackUndoesFlip(tasks: seq<Task>, id: int, k: nat)
    requires DistinctIds(tasks)
    requires IndexOfId(tasks, id) == Some(k)
    ensures SetCompleted(FlipCompleted(tasks, id), id, tasks[k].completed) == tasks
  {
    var x := SetCompleted(FlipCompleted(tasks, id), id, tasks[k].completed);
    assert forall i :: 0 <= i < |x| ==> x[i] == tasks[i];
  }

  /** With distinct ids, setting the flag to the negation of its value is the flip. */
  lemma SetForwardIsFlip(tasks: seq<Task>, id: int, k: nat)
    requires DistinctIds(tasks)
    requires IndexOfId(tasks, id) == Some(k)
    ensures SetCompleted(tasks, id, !tasks[k].completed) == FlipCompleted(tasks, id)
  {
    var x := SetCompleted(tasks, id, !tasks[k].completed);
    assert forall i :: 0 <= i < |x| ==> x[i] == FlipCompleted(tasks, id)[i];
  }

  lemma {:induction false} ToggleThenUndo(s: State, id: int)
    requires TasksValid(s)
    requires IndexOfId(s.tasks, id).Some?
    ensures Undo(ToggleTask(s, id)).tasks == s.tasks
    ensures Undo(ToggleTask(s, id)).categories == s.categories
    ensures CursorRestored(s, Undo(ToggleTask(s, id)))
    ensures Redo(Undo(ToggleTask(s, id))) == ToggleTask(s, id).(editingTaskId := None)
  {
    var k := IndexOfId(s.tasks, id).value;
    var s' := ToggleTask(s, id);
    assert s'.tasks == FlipCompleted(s.tasks, id);
    SetBackUndoesFlip(s.tasks, id, k);
    SetForwardIsFlip(s.tasks, id, k);
    RedoAfterUndo(s', s.categories, s.tasks);
    RecountIsIdentity(s.categories, s.tasks);
  }

  /** With distinct ids, applying a task's old data after an edit restores the list. */
  lemma EditBackRestores(tasks: seq<Task>, id: int, k: nat, data: EditData)
    requires DistinctIds(tasks)
    requires IndexOfId(tasks, id) == Some(k)
    ensures ApplyEdit(ApplyEdit(tasks, id, data), id, DataOf(tasks[k])) == tasks
  {
    var x := ApplyEdit(ApplyEdit(tasks, id, data), id, DataOf(tasks[k]));
    assert forall i :: 0 <= i < |x| ==> x[i] == tasks[i];
  }

  lemma {:induction false} EditThenUndo(s: State, id: int, data: EditData)
    requires TasksValid(s)
    requires IndexOfId(s.tasks, id).Some?
    requires DataOf(s.tasks[IndexOfId(s.tasks, id).value]) != data
    ensures Undo(EditTask(s, id, data)).tasks == s.tasks
    ensures Undo(EditTask(s, id, data)).categories == s.categories
    ensures CursorRestored(s, Undo(EditTask(s, id, data)))
    ensures Redo(Undo(EditTask(s, id, data))) == EditTask(s, id, data).(editingTaskId := None)
  {
    var k := IndexOfId(s.tasks, id).value;
    var s' := EditTask(s, id, data);
    assert s'.tasks == ApplyEdit(s.tasks, id, data);
    EditBackRestores(s.tasks, id, k, data);
    RedoAfterUndo(s', s.categories, s.tasks);
    RecountIsIdentity(s.categories, s.tasks);
  }

  /** `undo` changes the state exactly when `canUndo` holds. */
  lemma UndoNoOpIff(s: State)
    requires s.historyIndex < |s.history|
    ensures Undo(s) == s <==> !CanUndo(s)
  {
  }

  /** `redo` changes the state exactly when `canRedo` holds. */
  lemma RedoNoOpIff(s: State)
    requires s.historyIndex >= -1
    ensures Redo(s) == s <==> !CanRedo(s)
  {
  }

  /** Once 50 later entries have been recorded the first one is gone: a full history drops its oldest entry. */
  lemma EvictionForgetsOldest(s: State, data: NewTask)
    requires TasksValid(s)
    requires |s.history| == MaxHistorySize && s.historyIndex == MaxHistorySize - 1
    ensures AddTask(s, data).history == s.history[1..] + [Add(AddTask(s, data).tasks[0])]
    ensures |AddTask(s, data).history| == MaxHistorySize
  {
  }
}

=== FILE: views.dfy ===
/**
  Properties of the derived views of the hook: the filtered list is an
  order-preserving selection, the category filter agrees with the counts,
  and the statistics agree with the `active` and `completed` filters.
 */
module Views {
  import opened TaskTypes
  import opened Seqs
  import opened TaskManager
  import opened TaskManagerInvariants

  predicate IsKeyword(filter: string) {
    filter in ["all", "active", "completed", "high"]
  }

  /** The `all` filter shows the stored list as it is. */
  lemma AllShowsEverything(tasks: seq<Task>)
    ensures FilteredTasks(tasks, "all") == tasks
  {
    FilterKeepsAll(tasks, (t: Task) => Matches("all", t));
  }

  /** The view of a concatenation is the concatenation of the views: stored order is kept. */
  lemma FilteredKeepsOrder(a: seq<Task>, b: seq<Task>, filter: string)
    ensures FilteredTasks(a + b, filter) == FilteredTasks(a, filter) + FilteredTasks(b, filter)
  {
    FilterAppend(a, b, (t: Task) => Matches(filter, t));
  }

  /** Any non-keyword filter selects by category id, and shows as many tasks as that category counts. */
  lemma CategoryFilterMatchesCount(tasks: seq<Task>, filter: string)
    requires !IsKeyword(filter)
    ensures |FilteredTasks(tasks, filter)| == CountIn(tasks, filter)
    ensures forall i :: 0 <= i < |FilteredTasks(tasks, filter)| ==> FilteredTasks(tasks, filter)[i].category == filter
  {
    FilterSamePredicate(tasks, (t: Task) => Matches(filter, t), (t: Task) => t.category == filter);
  }

  /** The `completed` and `active` views are as long as the completed and pending statistics. */
  lemma StatsMatchViews(tasks: seq<Task>)
    ensures |FilteredTasks(tasks, "completed")| == TaskStats(tasks).completed
    ensures |FilteredTasks(tasks, "active")| == TaskStats(tasks).pending
    ensures |FilteredTasks(tasks, "completed")| + |FilteredTasks(tasks, "active")| == |tasks|
  {
    FilterSamePredicate(tasks, (t: Task) => Matches("completed", t), (t: Task) => t.completed);
    FilterSamePredicate(tasks, (t: Task) => Matches("active", t), (t: Task) => !t.completed);
  }

  /**
    Adding the category "Work" and then a task filed under "work": the task
    is counted once under that id and is all the "work" filter shows.
   */
  lemma WorkScenario(d: NewTask)
    requires d.text == "Draft report" && d.category == "work"
    ensures var s := AddTask(AddCategory(InitialState, "Work", "#3B82F6"), d);
            && (forall i :: 0 <= i < |s.categories| && s.categories[i].id == "work" ==> s.categories[i].count == 1)
            && FilteredTasks(s.tasks, "work") == s.tasks
            && |s.tasks| == 1 && s.tasks[0].text == "Draft report"
  {
    var s := AddTask(AddCategory(InitialState, "Work", "#3B82F6"), d);
    assert s.tasks == [s.tasks[0]];
    FilterKeepsAll(s.tasks, (t: Task) => Matches("work", t));
    FilterKeepsAll(s.tasks, (t: Task) => t.category == "work");
  }
}
